=== FILE: README.md ===
# requests: request shaping, sessions and responses in Dafny

This project models the core of `corex-io/requests`, a small Go HTTP client
library. It is a pure functional model: every Go operation becomes a Dafny
function over immutable records, and the properties the library promises are
proved as contracts and lemmas.

The model covers:

- the functional options that build an `Options` value (`options.go`);
- `NewRequestWithContext`, which turns those options into an `*http.Request`:
  the body reader, the path, the query, the header and the cookies
  (`request.go`);
- the `Session`: the transport and client that `New` derives from the options,
  `Init`, `Proxy`, `Timeout`, `SetKeepAlives`, and the sequential part of
  `DoRequest` (`session.go`);
- the `Response` wrapper: the one-shot `unpack`, the accessors over the
  buffered body, and the `Stat` summary (`response.go`);
- the log formatting helpers `show` and `DumpRequestIndent` (`util.go`, and the
  second copy of `show` in `session.go`).

Go strings and byte slices are both `Bytes`, a sequence of bytes. A Go map that
is iterated with `range` is given together with the order the loop visits it
(`order`). The parts of Go's standard library the core calls but that are not
modelled are passed in as a `Platform.Library` record of total functions:

- `url.Parse`;
- `(*url.URL).String`;
- `json.Unmarshal` into a map;
- time formatting.

Every property therefore holds whatever those functions do. The standard
library pieces the core depends on in detail are modelled in their own
modules:

- `Base64`: the base64 encoding of section 4 of RFC 4648.
- `Query`: `url.QueryEscape`, `url.Values.Encode` and `url.ParseQuery`.
- `HttpHeader`: header key canonicalisation and `Add`/`Set`/`Get`.
- `Request.StdNewRequest`: the request constructor `http.NewRequestWithContext`.
- `Request.AddCookie`: `AddCookie` and its Go 1.21 sanitisation.

Modules: `Base`, `Text` (split and join), `Query`, `Base64`, `HttpHeader`,
`Options`, `Platform`, `Request`, `Session`, `Response`, `Show`.

A few behaviours of the code are easy to miss; the model keeps them as the
code has them:

- `Verify` defaults to false, so TLS verification is skipped unless
  `Verify(true)` is given.
- `unpack` overwrites `ContentLength` with the number of bytes read, whatever
  it was before.
- `Proxy` accepts any URL scheme. `socks4` is dialled with the SOCKS5 dialer,
  like `socks5`.
- The per-call `Timeout` and `Verify` options have no effect in `DoRequest`.
  The client and transport are built once, by `New`.

The files also mix revisions of the library:

- `DoRequest` calls `Request(options)`, which is not among the files. It is
  read here as `NewRequestWithContext(context.Background(), options)`.
- `show` is defined both in `util.go` and in `session.go`. The two copies
  differ only in their truncation budget (1024 and 9999 bytes).

## Model

| member | source | states |
|---|---|---|
| Options.NewOptionsDefaults | options.go:34-48 | with no options the method is GET, params and header are empty, the timeout is 30000 and trace and verify are off; any options are folded over exactly those defaults |
| Options.ApplyConcat | options.go:44-46 | folding two option lists in turn equals folding their concatenation (so `Init` options followed by per-call options act as one list) |
| Options.ApplyOneFrame | options.go:57-163 | an option leaves every field it does not write exactly as it was |
| Options.ApplyOneEffects | options.go:57-136 | `Method`, `URL`, `Body`, `Timeout`, `Trace` and `Verify` store their argument; `Path`, `Cookie` and `Cookies` append exactly what they are given; `Header(k, v)` is `Header.Add(k, v)`; `Param(k, v)` stores `v` under `k`; `Form(f)` makes the body the form and is `Header.Add("content-type", "application/x-www-form-urlencoded")` on the header |
| Options.SetterIdempotent | options.go:57-163 | `Method`, `URL`, `Body`, `Timeout`, `Trace` and `Verify` applied twice act as applied once |
| Options.LaterSetterWins | options.go:57-163 | of two setters of the same field the later one wins outright |
| Options.MergeParamsIsUnion | options.go:78-84 | `Params(q)` gives the old params overridden key by key by the entries of `q`, later entries winning |
| Options.ParamsIsEachParam | options.go:78-91 | `Params(q)` equals one `Param(k, v)` per entry in visiting order |
| Options.HeadersIsEachHeader | options.go:108-122 | `Headers(kv)` equals one `Header(k, v)` per entry in visiting order |
| Options.CookiesIsEachCookie | options.go:124-136 | `Cookies(cs...)` equals one `Cookie(c)` per cookie in order |
| Options.HeaderValuesOnlyGrow | options.go:100-122 | under every header key, the values before any sequence of options are a prefix of the values after it |
| Options.PathAndCookiesOnlyGrow | options.go:70-136 | the path segments and the cookies before a sequence of options are a prefix of those after it |
| Options.ApplyKeepsNonEmptyLists | options.go:100-122 | no option leaves a header key with an empty value list |
| Options.BasicAuth | options.go:139-142 | the option is a `Header` on `Authorization` whose value starts with `Basic ` |
| Options.BasicAuthCarriesCredentials | options.go:140 | the text after `Basic ` decodes from base64 to exactly `user:pass` |
| Base64.RoundTrip | options.go:140 | decoding the standard base64 encoding gives back the input |
| HttpHeader.CanonicalIdempotent | options.go:108-113 | canonicalising a header key that is already canonical changes nothing |
| HttpHeader.Add | options.go:108-113 | `Header.Add` appends the value under the canonical key, leaves every other key's values alone and adds the canonical key |
| Request.BodyReader | request.go:14-36 | nil gives no reader; byte slices, strings and buffers give replayable readers over their bytes; a caller's reader passes through; any other value is read as its JSON encoding through a replayable bytes reader; only a failing JSON marshal gives an error, and that error is returned |
| Request.BodyReaderForm | request.go:27-28 | a form body is read as text that `url.ParseQuery` parses back to the form |
| Query.FormRoundTrip | request.go:27-28 | parsing the encoding of a `url.Values` whose keys all hold values gives back the same map |
| Query.QueryEscapeRoundTrip | request.go:59 | unescaping `url.QueryEscape(s)` gives back `s` |
| Query.EscapedIsDelimiterFree | request.go:59 | an escaped value holds no `&`, `=` or `;` |
| Request.StdNewRequest | request.go:45-48 | an empty method means GET; an invalid method fails with `net/http: invalid method`; a URL parse error is passed through; a replayable body sets the content length and a `GetBody` snapshot of its bytes and is sent as that reader, or as no body when it is empty; any other reader is sent as it is with no length or `GetBody` |
| Request.NewRequestWithContext | request.go:39-68 | a body-reader or constructor error is returned unchanged; on success the method, context, body, content length and `GetBody` are the constructor's, the path is the parsed path followed by every segment, the query is the parsed query and one `key=escaped value` per parameter joined by `&`, and without cookies the header is the options' header |
| Request.AppendParamsJoin | request.go:55-60 | the query loop yields the old raw query (when non-empty) and the parameter pieces in visiting order, with `&` between neighbours only |
| Request.QuerySplitsIntoPieces | request.go:55-60 | on a fresh URL with keys free of `&`, splitting the query on `&` gives back exactly one piece per parameter |
| Request.AddCookiesHeader | request.go:62-66 | after the cookie loop the header holds one `Cookie` value: the earlier value if any, then each cookie's pair in order, joined by `; `; no other key changes |
| Request.SanitizeName | request.go:65 | `AddCookie` turns each newline and carriage return in a cookie name into `-` and keeps every other byte where it was |
| Request.KeepCookieBytes | request.go:65 | a single byte of a cookie value is kept exactly when `net/http` accepts it; the kept bytes are all accepted ones, and a value with no rejected byte is kept whole |
| Request.KeepCookieBytesAppend | request.go:65 | keeping cookie bytes works piece by piece (the filtered concatenation is the concatenation of the filtered pieces), so each byte is kept or dropped on its own |
| Request.SanitizeValue | request.go:65 | with `k` the kept bytes: the value is empty exactly when `k` is; it is `"` + `k` + `"` when `k` holds a space or a comma and `k` itself otherwise; it never holds `;` or a backslash |
| Session.Duration | session.go:70 | `time.Duration(n) * unit` is the exact product whenever it fits in 64 bits |
| Session.New | session.go:45-83 | the session's options are the folded options; TLS verification is skipped exactly when `Verify` is off; the client timeout is `Timeout` read as milliseconds; the proxy comes from the environment; a 30 s connect timeout, 300 s keep-alive, 100 idle connections, compression off and keep-alives on |
| Session.NewDefaults | session.go:47-70 | with no options TLS verification is skipped and the client timeout is 30 seconds |
| Session.NewVerifyLastWins | session.go:61-63 | the last `Verify(b)` given to `New` decides verification |
| Session.Init | session.go:86-90 | `Init` folds its options over the session's baseline options and leaves the transport and client as they are |
| Session.NewThenInit | session.go:86-90 | `New(a)` followed by `Init(b)` has the baseline options of `New(a + b)` |
| Session.Proxy | session.go:100-121 | an empty or unparsable address is an error that leaves the session unchanged; a `socks5`/`socks4` URL replaces only the dialer; any other URL replaces only the proxy rule |
| Session.ProxyIdempotent | session.go:100-121 | setting the same proxy twice equals setting it once |
| Session.SetTimeout | session.go:130-133 | the client timeout becomes `n` seconds and nothing else changes |
| Session.TimeoutUnits | session.go:130-133 | `Timeout(n)` on a session gives the same client as a `Timeout(n * 1000)` option given to `New` |
| Session.SetKeepAlives | session.go:137-140 | keep-alives are disabled exactly when `false` is given and nothing else changes |
| Session.SetKeepAlivesLastWins | session.go:137-140 | the later setting wins, and setting back the old value restores the session |
| Session.Build | session.go:147-170 | a build error is returned wrapped as `Request: %w`; otherwise the request (with the caller's context when one is given) goes to the session's transport when tracing, and to the session's client, which sends through that same transport, otherwise |
| Session.DoRequestAsWritten | session.go:143-173 | as written, the returned session keeps its transport, client and every option except params and header; its params become the call's params, and its header becomes the sent header (with the `Cookie` header) or, when the build fails, the call's folded header |
| Session.AsWrittenRepeatsCookies | session.go:147-152 | as written, a session with baseline cookie `a=b` sends `Cookie: a=b` on its first call and `Cookie: a=b; a=b` on an identical second call |
| Session.AsWrittenKeepsParams | session.go:147-150 | as written, a per-call `Param(k, v)` is still sent by the next call without it |
| Session.DoRequest | session.go:143-173 | with the baseline isolated, the session is returned unchanged; the request is sent exactly when it builds, and it is the built request with the caller's context when one is given; a build error is returned wrapped as `Request: %w`; the request is traced exactly when `Trace` is on, through the session's transport, and otherwise goes to the session's client; a sent request has one `Cookie` value, the options' header value if any followed by each cookie once, in order, and every other header key as the options left it |
| Session.DoRequestIsolated | session.go:143-173 | with the baseline isolated, a call sends the same request whatever calls came before it |
| Response.Unpack | response.go:53-64 | the first call records the cost and, when there is a body, appends all of it to the buffer, sets the content length to the bytes read and the error to the read error; every later call changes nothing |
| Response.UnpackOnce | response.go:53-64 | any number of later `unpack` calls, at any times, leave the response as the first call left it |
| Response.TextAfterUnpack | response.go:141-149 | after unpacking a fresh response the text is the whole body, and unpacking again does not change it |
| Response.ErrorText | response.go:129-134 | "" without an error, otherwise the error's message |
| Response.BodyStat | response.go:77-81 | a body shows as its decoded object exactly when it decodes as JSON, and as its text otherwise |
| Response.FirstValuesGet | response.go:85-87 | under each canonical key the summary holds the first value, the one `Get` returns |
| Response.GetStat | response.go:67-123 | the cost is in whole milliseconds (truncated); the response part is empty without a response and otherwise has the first value under each header key, the status, the length and the buffered body; the request part has its method, URL, the first value under each header key, and a body exactly when `GetBody` is set; `Err` is the error text; `Retry` stays 0 |
| Response.StatShowsRequestBody | response.go:96-109 | a request built from a byte-slice body shows exactly those bytes in its summary |
| Show.ShowFullLength | util.go:31-36 | before truncation the output is one prompt and newline per line, plus the input without its newlines, with each `%` counted twice |
| Show.ShowFullLineCount | util.go:31-36 | the output has one newline more than the input |
| Show.ShowFullPrintsInput | util.go:33 | a printf-style logger prints the untruncated output as the input with the prompt before every line |
| Show.UnescapeEscape | util.go:33 | doubling every `%` makes a format string that prints the text literally |
| Show.Show | util.go:37-40 | output within the budget is returned whole; longer output is its first `budget` bytes followed by `...[Len=n, Truncated]` with the full length |
| Show.TruncationNoteLength | util.go:38 | the length in the note reads back as the full length |
| Show.ShowCanSplitEscape | util.go:37-39 | as written, for any budget larger than the prompt there is an input whose truncated output ends in a lone `%`, so the logger does not print it literally |
| Show.ShowBudgetsSplitEscape | session.go:348-350 | with prompt `> `, inputs of 1021 and 9996 bytes of `a` followed by `%` break the 1024- and 9999-byte copies of `show` |
| Show.ShowSafe | util.go:37-40 | the corrected truncation keeps `budget` or `budget - 1` bytes and then the note |
| Show.ShowSafeIsFormatSafe | util.go:37-40 | the corrected output always prints literally, truncated or not |
| Show.DumpRequestIndentLines | util.go:15-25 | every line of the indented dump is `> ` and the matching dump line, one empty piece follows the last newline, and stripping the prompts gives back the dump |

## Left out

- Options.Copy (options.go:165-173): a JSON round trip of the struct, not modelled because JSON encoding is not modelled.
- Session.Load (session.go:93-95): it calls `Options.Load`, and `Options.Load` is not part of this model.
- SetLogFunc (session.go:124-127) and the `LogFunc`/`Logf` fields: a logging sink with no effect on requests.
- The network half of `DoRequest` (session.go:156-172): `Client.Do`, the transport's `RoundTrip` and `WarpResponse` are I/O. The model ends with the dispatch: the request and the route it would take.
- The timing around `DoRequest` is also left out. The clock is a parameter of `Unpack`.
- The mutex around the option fold in `DoRequest` (session.go:145-154), and the `errs` channel: concurrency is not modelled.
- Do, Get, Head, Post, Put, Delete, PostForm and their `WithContext` forms (session.go:176-238): each is `DoRequest` with fixed options. The `Reader` option they use is not part of this model.
- Upload and Uploadmultipart (session.go:241-281): file I/O and multipart encoding.
- DebugTrace (session.go:286-337): network I/O and trace logging. The `show` it calls is modelled.
- DumpRequest (util.go:10-13): the wire dump comes from `httputil` and is a parameter of `DumpRequestIndent` here.
- StdLib, Download, JSON, Dump and Stat.String (response.go:35-38, 136-169): accessors, file I/O and JSON encoding.
- Response.FirstValues and Response.GetStat: they require every header key to hold at least one value. Go would panic with an index out of range at `v[0]` (response.go:85-87) on an empty list. No sequence of options can produce one (`Options.ApplyKeepsNonEmptyLists`).
- The `http.Client` cookie jar (session.go:65-72): it is created empty and only matters when responses set cookies.
- Request.StdNewRequest: the error message puts the method in plain double quotes. Go's `%q` would also escape quotes and non-printable bytes inside it.
- Request.StdNewRequest: `http.NewRequestWithContext` is modelled for the method check, the URL parse, the context, the content length, the `GetBody` snapshot and the nil body. It does not model `u.Host = removeEmptyPort(u.Host)`: for `http://h:/x` Go's request has host `h`, while the model keeps whatever host the `Library`'s `url.Parse` returns (`h:`), the same parse `Proxy` uses.
- Request.NewRequestWithContext: its contract states the header only when there are no cookies. With cookies the header is `AddCookies(opt.header, opt.cookies)`, which `Request.AddCookiesHeader` describes.
- Response.GetStat: a JSON body is shown through the `Library`'s decoder, so what a decoded object contains is not stated.
- Response.Unpack: a body is modelled as the bytes it yields and the error that ends the read. How the error interrupts reading is not modelled.
- Session.Build: the context given to `DoRequest` replaces the request's context, which is kept abstract. `nil` is modelled as `None`.
- Show.Show: the `%` doubling and prompts are modelled on bytes. The logger's full format-verb grammar is reduced to "`%%` prints `%`, any other `%` is not printed literally".

## Findings

| source | as written | input that shows it | evidently intended | confidence | as-written member | corrected member |
|---|---|---|---|---|---|---|
| session.go:147-152 | `options := sess.opts` copies the struct but not the `Params` and `Header` maps it points to. Per-call `Param`, `Params`, `Header`, `Headers` and `Form` options, and the `Cookie` header that `AddCookie` writes through `req.Header = opt.Header`, all land in the session's own maps. | a session made with `Cookie(a=b)` and a parsable URL, then two `DoRequest` calls with no options: the second call sends `Cookie: a=b; a=b` | each call starts from the session's baseline as configured (value receiver and struct copy) | not executed | Session.DoRequestAsWritten | Session.DoRequest |
| util.go:37-39 | the output is cut at exactly `maxTruncateBytes` bytes, which can fall between the two bytes of an escaped `%%`. The logger is then handed a lone `%` followed by `...`. | prompt `> ` and 1021 bytes of `a` followed by `%` (9996 for the 9999-byte copy in session.go:348-350) | the truncated output is still a format string that prints literally | not executed | Show.Show | Show.ShowSafe |

=== FILE: base.dfy ===
/** Shared vocabulary of the model: Go bytes and strings, optional values,
    results carrying a Go `error`, and Go's 64-bit signed integers. */
module Base {

  /** A Go byte. Go's `string` and `[]byte` are both byte sequences; the model
      writes both as sequences of chars below 256 so that literals stay readable. */
  type byte = c: char | c as int < 256 witness 'a'
  type Bytes = seq<byte>

  datatype Option<+T> = None | Some(value: T)

  /** A Go `(T, error)` pair where exactly one side is meaningful. */
  datatype Result<+T> = Ok(value: T) | Fail(error: Error)

  /** A Go `error`: a plain message, or a `%w` wrap of another error. */
  datatype Error = Error(text: Bytes) | Wrapped(prefix: Bytes, cause: Error)

  /** What `err.Error()` returns. */
  function Message(e: Error): Bytes
  {
    match e
    case Error(t) => t
    case Wrapped(p, c) => p + Message(c)
  }

  /** The chain `errors.Is` / `errors.Unwrap` walk. */
  predicate Wraps(e: Error, inner: Error)
  {
    e == inner || (e.Wrapped? && Wraps(e.cause, inner))
  }

  /** `fmt.Errorf(prefix + "%w", cause)`: the message gains the prefix and the
      cause stays reachable through unwrapping. */
  function Wrap(prefix: Bytes, cause: Error): (e: Error)
    ensures Message(e) == prefix + Message(cause)
    ensures Wraps(e, cause)
  {
    Wrapped(prefix, cause)
  }

  const INT64_MIN: int := -0x8000_0000_0000_0000
  const INT64_LIMIT: int := 0x8000_0000_0000_0000
  type int64 = x: int | INT64_MIN <= x < INT64_LIMIT

  /** Two's-complement wrap-around of Go's `int64` arithmetic. */
  function WrapInt64(x: int): (r: int64)
    ensures (r - x) % 0x1_0000_0000_0000_0000 == 0
    ensures INT64_MIN <= x < INT64_LIMIT ==> r == x
  {
    (x - INT64_MIN) % 0x1_0000_0000_0000_0000 + INT64_MIN
  }

  /** Go's integer division truncates toward zero; Dafny's is Euclidean. */
  function TruncDiv(a: int, b: int): (q: int)
    requires b > 0
    ensures a >= 0 ==> q == a / b
    ensures a < 0 ==> q == -((-a) / b)
    ensures a >= 0 ==> 0 <= a - q * b < b
    ensures a < 0 ==> -b < a - q * b <= 0
  {
    if a >= 0 then a / b else -((-a) / b)
  }

  /** Number of occurrences of `c` in `s`. */
  function Count(s: Bytes, c: byte): nat
  {
    if s == [] then 0 else (if s[0] == c then 1 else 0) + Count(s[1..], c)
  }

  lemma {:induction false} CountAppend(a: Bytes, b: Bytes, c: byte)
    ensures Count(a + b, c) == Count(a, c) + Count(b, c)
  {
    if a == [] {
      assert a + b == b;
    } else {
      assert (a + b)[1..] == a[1..] + b;
      CountAppend(a[1..], b, c);
    }
  }

  /** `c` does not occur in `s`. */
  predicate Free(s: Bytes, c: byte)
  {
    forall i :: 0 <= i < |s| ==> s[i] != c
  }

  lemma FreeAppend(a: Bytes, b: Bytes, c: byte)
    requires Free(a, c) && Free(b, c)
    ensures Free(a + b, c)
  {
    assert forall i :: |a| <= i < |a + b| ==> (a + b)[i] == b[i - |a|];
  }

  lemma {:induction false} FreeCount(s: Bytes, c: byte)
    ensures Free(s, c) <==> Count(s, c) == 0
  {
    if s != [] {
      FreeCount(s[1..], c);
      assert forall i :: 1 <= i < |s| ==> s[i] == s[1..][i - 1];
    }
  }

  /** Concatenation of a sequence of byte strings. */
  function Concat(ps: seq<Bytes>): Bytes
  {
    if ps == [] then [] else ps[0] + Concat(ps[1..])
  }

  lemma {:induction false} ConcatAppend(a: seq<Bytes>, b: seq<Bytes>)
    ensures Concat(a + b) == Concat(a) + Concat(b)
  {
    if a == [] {
      assert a + b == b;
    } else {
      assert (a + b)[1..] == a[1..] + b;
      ConcatAppend(a[1..], b);
    }
  }

  /** Decimal digits of `n`, as `%d` prints a non-negative integer. */
  function Decimal(n: nat): (r: Bytes)
    ensures |r| >= 1
    ensures forall i :: 0 <= i < |r| ==> '0' <= r[i] <= '9'
    ensures DigitsValue(r) == n
    ensures |r| > 1 ==> r[0] != '0'
  {
    if n < 10 then [Digit(n)]
    else
      var r := Decimal(n / 10) + [Digit(n % 10)];
      assert r[..|r| - 1] == Decimal(n / 10);
      r
  }

  function Digit(d: nat): (c: byte)
    requires d < 10
    ensures '0' <= c <= '9' && c as int - '0' as int == d
  {
    ('0' as int + d) as char
  }

  /** The number a string of decimal digits denotes, read most significant first. */
  function DigitsValue(s: Bytes): int
  {
    if s == [] then 0 else DigitsValue(s[..|s| - 1]) * 10 + (s[|s| - 1] as int - '0' as int)
  }
}

=== FILE: base64.dfy ===
/** The base 64 encoding of section 4 of RFC 4648, with `=` padding, as
    Go's `base64.StdEncoding.EncodeToString` produces it. `Decode` is the
    inverse used to state what an encoding carries.

    Both directions go through a layer of 6-bit digits (`PAD` standing for
    `=`), so that the bit arithmetic and the alphabet are dealt with apart. */
module Base64 {
  import opened Base

  /** The digit sequence value that stands for the pad character `=`. */
  const PAD: int := -1

  predicate IsDigit(d: int)
  {
    PAD <= d < 64
  }

  /** The 64-character alphabet of Table 1 in RFC 4648. */
  function Alphabet(d: nat): (c: byte)
    requires d < 64
    ensures IndexOf(c) == Some(d)
  {
    if d < 26 then ('A' as int + d) as char
    else if d < 52 then ('a' as int + d - 26) as char
    else if d < 62 then ('0' as int + d - 52) as char
    else if d == 62 then '+'
    else '/'
  }

  /** Position of a character in the alphabet; `=` and every other byte are
      not in it. */
  function IndexOf(c: byte): (r: Option<nat>)
    ensures r.Some? ==> r.value < 64
    ensures c == '=' ==> r.None?
  {
    if 'A' <= c <= 'Z' then Some(c as int - 'A' as int)
    else if 'a' <= c <= 'z' then Some(c as int - 'a' as int + 26)
    else if '0' <= c <= '9' then Some(c as int - '0' as int + 52)
    else if c == '+' then Some(62)
    else if c == '/' then Some(63)
    else None
  }

  /** One digit as its character. */
  function Render(d: int): byte
    requires IsDigit(d)
  {
    if d == PAD then '=' else Alphabet(d)
  }

  /** One character as its digit; None when it is neither in the alphabet
      nor `=`. */
  function Parse(c: byte): (r: Option<int>)
    ensures r.Some? ==> IsDigit(r.value)
  {
    if c == '=' then Some(PAD) else
    match IndexOf(c)
    case None => None
    case Some(d) => Some(d)
  }

  lemma ParseRender(d: int)
    requires IsDigit(d)
    ensures Parse(Render(d)) == Some(d)
  {
  }

  function RenderAll(ds: seq<int>): (r: Bytes)
    requires forall i :: 0 <= i < |ds| ==> IsDigit(ds[i])
    ensures |r| == |ds|
  {
    if ds == [] then [] else [Render(ds[0])] + RenderAll(ds[1..])
  }

  function ParseAll(s: Bytes): Option<seq<int>>
  {
    if s == [] then Some([])
    else
      match (Parse(s[0]), ParseAll(s[1..]))
      case (Some(d), Some(ds)) => Some([d] + ds)
      case _ => None
  }

  lemma {:induction false} ParseAllRenderAll(ds: seq<int>)
    requires forall i :: 0 <= i < |ds| ==> IsDigit(ds[i])
    ensures ParseAll(RenderAll(ds)) == Some(ds)
  {
    if ds != [] {
      ParseRender(ds[0]);
      ParseAllRenderAll(ds[1..]);
      assert RenderAll(ds)[1..] == RenderAll(ds[1..]);
      assert [ds[0]] + ds[1..] == ds;
    }
  }

  /** The 6-bit digits of the encoding: whole 3-byte blocks give four digits,
      one or two trailing bytes give two or three digits and then padding. */
  function EncodeDigits(s: Bytes): (ds: seq<int>)
    ensures |ds| % 4 == 0
    ensures forall i :: 0 <= i < |ds| ==> IsDigit(ds[i])
    decreases |s|
  {
    if |s| == 0 then []
    else if |s| == 1 then Block1(s[0])
    else if |s| == 2 then Block2(s[0], s[1])
    else Block3(s[0], s[1], s[2]) + EncodeDigits(s[3..])
  }

  /** The four digits of one final byte: its 8 bits, zero-filled to 12, and
      two pads. */
  function Block1(a: byte): (q: seq<int>)
    ensures |q| == 4 && forall i :: 0 <= i < 4 ==> IsDigit(q[i])
  {
    var x := a as int;
    [x / 4, (x % 4) * 16, PAD, PAD]
  }

  /** The four digits of two final bytes: their 16 bits, zero-filled to 18,
      and one pad. */
  function Block2(a: byte, b: byte): (q: seq<int>)
    ensures |q| == 4 && forall i :: 0 <= i < 4 ==> IsDigit(q[i])
  {
    var x, y := a as int, b as int;
    [x / 4, (x % 4) * 16 + y / 16, (y % 16) * 4, PAD]
  }

  /** The four digits of three bytes: their 24 bits, six at a time. */
  function Block3(a: byte, b: byte, c: byte): (q: seq<int>)
    ensures |q| == 4 && forall i :: 0 <= i < 4 ==> IsDigit(q[i])
  {
    var x, y, z := a as int, b as int, c as int;
    [x / 4, (x % 4) * 16 + y / 16, (y % 16) * 4 + z / 64, z % 64]
  }

  /** `base64.StdEncoding.EncodeToString(s)`. */
  function Encode(s: Bytes): (r: Bytes)
    ensures |r| % 4 == 0
  {
    RenderAll(EncodeDigits(s))
  }

  /** Four digits as the bytes they carry; padding only in the final block. */
  function DecodeBlock(d0: int, d1: int, d2: int, d3: int, last: bool): Option<Bytes>
  {
    if !(0 <= d0 < 64 && 0 <= d1 < 64) then None
    else
      var a := (d0 * 4 + d1 / 16) as char;
      if last && d2 == PAD && d3 == PAD then Some([a])
      else if !(0 <= d2 < 64) then None
      else
        var b := ((d1 % 16) * 16 + d2 / 4) as char;
        if last && d3 == PAD then Some([a, b])
        else if !(0 <= d3 < 64) then None
        else Some([a, b, ((d2 % 4) * 64 + d3) as char])
  }

  function DecodeDigits(ds: seq<int>): Option<Bytes>
    decreases |ds|
  {
    if |ds| == 0 then Some([])
    else if |ds| < 4 then None
    else
      match DecodeBlock(ds[0], ds[1], ds[2], ds[3], |ds| == 4)
      case None => None
      case Some(head) =>
        match DecodeDigits(ds[4..])
        case None => None
        case Some(tail) => Some(head + tail)
  }

  /** Decoding of a padded base 64 text; None when it is malformed. */
  function Decode(s: Bytes): Option<Bytes>
  {
    match ParseAll(s)
    case None => None
    case Some(ds) => DecodeDigits(ds)
  }

  lemma DecodeOne(a: byte)
    ensures var q := Block1(a); DecodeBlock(q[0], q[1], q[2], q[3], true) == Some([a])
  {
    var x := a as int;
    assert (x / 4) * 4 + ((x % 4) * 16) / 16 == x;
  }

  lemma DecodeTwo(a: byte, b: byte)
    ensures var q := Block2(a, b); DecodeBlock(q[0], q[1], q[2], q[3], true) == Some([a, b])
  {
    var x, y := a as int, b as int;
    assert (x / 4) * 4 + ((x % 4) * 16 + y / 16) / 16 == x;
    assert (((x % 4) * 16 + y / 16) % 16) * 16 + ((y % 16) * 4) / 4 == y;
  }

  lemma DecodeThree(a: byte, b: byte, c: byte, last: bool)
    ensures var q := Block3(a, b, c); DecodeBlock(q[0], q[1], q[2], q[3], last) == Some([a, b, c])
  {
    var x, y, z := a as int, b as int, c as int;
    assert (x / 4) * 4 + ((x % 4) * 16 + y / 16) / 16 == x;
    assert (((x % 4) * 16 + y / 16) % 16) * 16 + ((y % 16) * 4 + z / 64) / 4 == y;
    assert (((y % 16) * 4 + z / 64) % 4) * 64 + z % 64 == z;
  }

  /** A block followed by more digits decodes to the block's bytes followed
      by the rest's. */
  lemma DecodeDigitsStep(block: seq<int>, rest: seq<int>, head: Bytes, tail: Bytes)
    requires |block| == 4
    requires DecodeBlock(block[0], block[1], block[2], block[3], rest == []) == Some(head)
    requires DecodeDigits(rest) == Some(tail)
    ensures DecodeDigits(block + rest) == Some(head + tail)
  {
    var ds := block + rest;
    assert ds[0] == block[0] && ds[1] == block[1] && ds[2] == block[2] && ds[3] == block[3];
    assert ds[4..] == rest;
  }

  lemma DigitsOne(s: Bytes)
    requires |s| == 1
    ensures DecodeDigits(EncodeDigits(s)) == Some(s)
  {
    DecodeOne(s[0]);
    var block := Block1(s[0]);
    assert EncodeDigits(s) == block + [];
    DecodeDigitsStep(block, [], [s[0]], []);
    assert [s[0]] + [] == s;
  }

  lemma DigitsTwo(s: Bytes)
    requires |s| == 2
    ensures DecodeDigits(EncodeDigits(s)) == Some(s)
  {
    DecodeTwo(s[0], s[1]);
    var block := Block2(s[0], s[1]);
    assert EncodeDigits(s) == block + [];
    DecodeDigitsStep(block, [], [s[0], s[1]], []);
    assert [s[0], s[1]] + [] == s;
  }

  lemma DigitsBlock(a: byte, b: byte, c: byte, rest: seq<int>, tail: Bytes)
    requires DecodeDigits(rest) == Some(tail)
    ensures DecodeDigits(Block3(a, b, c) + rest) == Some([a, b, c] + tail)
  {
    DecodeThree(a, b, c, rest == []);
    DecodeDigitsStep(Block3(a, b, c), rest, [a, b, c], tail);
  }

  lemma {:induction false} DigitsRoundTrip(s: Bytes)
    ensures DecodeDigits(EncodeDigits(s)) == Some(s)
    decreases |s|
  {
    if |s| == 1 {
      DigitsOne(s);
    } else if |s| == 2 {
      DigitsTwo(s);
    } else if |s| >= 3 {
      DigitsRoundTrip(s[3..]);
      DigitsBlock(s[0], s[1], s[2], EncodeDigits(s[3..]), s[3..]);
      assert EncodeDigits(s) == Block3(s[0], s[1], s[2]) + EncodeDigits(s[3..]);
      assert [s[0], s[1], s[2]] + s[3..] == s;
    }
  }

  /** Decoding an encoding gives back the original bytes. */
  lemma RoundTrip(s: Bytes)
    ensures Decode(Encode(s)) == Some(s)
  {
    ParseAllRenderAll(EncodeDigits(s));
    DigitsRoundTrip(s);
  }
}

=== FILE: header.dfy ===
/** Go's `http.Header`: a map from canonical key to an ordered list of values,
    with `Add`, `Set` and `Get` canonicalising the key the way
    `textproto.CanonicalMIMEHeaderKey` does. */
module HttpHeader {
  import opened Base

  type HeaderMap = map<Bytes, seq<Bytes>>

  /** A `tchar` of section 3.2.6 of RFC 7230: the bytes allowed in a header
      field name or a method token. */
  predicate TokenByte(c: byte)
  {
    ('A' <= c <= 'Z') || ('a' <= c <= 'z') || ('0' <= c <= '9')
    || c == '!' || c == '#' || c == '$' || c == '%' || c == '&' || c == '\''
    || c == '*' || c == '+' || c == '-' || c == '.' || c == '^' || c == '_'
    || c == '`' || c == '|' || c == '~'
  }

  predicate IsToken(s: Bytes)
  {
    forall i :: 0 <= i < |s| ==> TokenByte(s[i])
  }

  /** Letter case of one byte at a word start (`upper`) or inside a word. */
  function Recase(c: byte, upper: bool): (r: byte)
    ensures TokenByte(c) ==> TokenByte(r)
    ensures (r == '-') == (c == '-')
  {
    if upper && 'a' <= c <= 'z' then (c as int - 32) as char
    else if !upper && 'A' <= c <= 'Z' then (c as int + 32) as char
    else c
  }

  /** Upper case at the start and after each `-`, lower case elsewhere. */
  function CanonicalWords(s: Bytes, upper: bool): (r: Bytes)
    ensures |r| == |s|
    ensures IsToken(s) ==> IsToken(r)
  {
    if s == [] then []
    else
      var c := Recase(s[0], upper);
      var r := [c] + CanonicalWords(s[1..], c == '-');
      assert forall i :: 1 <= i < |r| ==> r[i] == CanonicalWords(s[1..], c == '-')[i - 1];
      r
  }

  /** `textproto.CanonicalMIMEHeaderKey(k)`: a key made only of token bytes is
      recased word by word; any other key (one holding a space, say) is kept
      as it is. */
  function Canonical(k: Bytes): (r: Bytes)
    ensures |r| == |k|
  {
    if IsToken(k) then CanonicalWords(k, true) else k
  }

  lemma {:induction false} CanonicalWordsIdempotent(s: Bytes, upper: bool)
    ensures CanonicalWords(CanonicalWords(s, upper), upper) == CanonicalWords(s, upper)
  {
    if s != [] {
      var c := Recase(s[0], upper);
      var t := CanonicalWords(s, upper);
      assert t[0] == c && t[1..] == CanonicalWords(s[1..], c == '-');
      assert Recase(c, upper) == c;
      CanonicalWordsIdempotent(s[1..], c == '-');
    }
  }

  /** Canonicalising a canonical key changes nothing. */
  lemma CanonicalIdempotent(k: Bytes)
    ensures Canonical(Canonical(k)) == Canonical(k)
  {
    if IsToken(k) {
      CanonicalWordsIdempotent(k, true);
    }
  }

  /** The values stored under `k`, none when it is absent. */
  function Values(h: HeaderMap, k: Bytes): seq<Bytes>
  {
    if k in h then h[k] else []
  }

  /** `h.Add(k, v)`: appends `v` to the values under the canonical key. */
  function Add(h: HeaderMap, k: Bytes, v: Bytes): (r: HeaderMap)
    ensures Values(r, Canonical(k)) == Values(h, Canonical(k)) + [v]
    ensures forall k' :: k' != Canonical(k) ==> Values(r, k') == Values(h, k')
    ensures r.Keys == h.Keys + {Canonical(k)}
  {
    var key := Canonical(k);
    h[key := Values(h, key) + [v]]
  }

  /** `h.Set(k, v)`: replaces every value under the canonical key by `v`. */
  function Set(h: HeaderMap, k: Bytes, v: Bytes): (r: HeaderMap)
    ensures Values(r, Canonical(k)) == [v]
    ensures forall k' :: k' != Canonical(k) ==> Values(r, k') == Values(h, k')
    ensures r.Keys == h.Keys + {Canonical(k)}
  {
    h[Canonical(k) := [v]]
  }

  /** `h.Get(k)`: the first value under the canonical key, "" when none. */
  function Get(h: HeaderMap, k: Bytes): (r: Bytes)
    ensures Values(h, Canonical(k)) == [] ==> r == []
    ensures Values(h, Canonical(k)) != [] ==> r == Values(h, Canonical(k))[0]
  {
    var vs := Values(h, Canonical(k));
    if vs == [] then [] else vs[0]
  }

  /** Every key holds at least one value: what `Add` and `Set` leave behind,
      and what reading `v[0]` for each key relies on. */
  predicate NonEmptyLists(h: HeaderMap)
  {
    forall k :: k in h ==> h[k] != []
  }

  lemma AddKeepsNonEmpty(h: HeaderMap, k: Bytes, v: Bytes)
    requires NonEmptyLists(h)
    ensures NonEmptyLists(Add(h, k, v))
  {
  }

  lemma SetKeepsNonEmpty(h: HeaderMap, k: Bytes, v: Bytes)
    requires NonEmptyLists(h)
    ensures NonEmptyLists(Set(h, k, v))
  {
  }
}

=== FILE: options.dfy ===
/** The request description (`Options`) and its functional options
    (options.go). Each Go `Option` closure is a constructor of
    `RequestOption`; `ApplyOne` is what the closure does to `*Options`, and
    `Apply` is the `for _, o := range opts { o(&opt) }` loop. */
module Options {
  import opened Base
  import opened HttpHeader
  import Query
  import Base64

  /** A Go value of static type `any`, as far as this core looks at it: its
      `%v` rendering and its `json.Marshal` result, which may be an error. */
  datatype Value = Value(shown: Bytes, json: Result<Bytes>)

  /** The two fields of an `http.Cookie` that a request uses. */
  datatype HttpCookie = HttpCookie(name: Bytes, value: Bytes)

  /** The dynamic type of a caller's `io.Reader`, which decides whether
      `http.NewRequest` can replay it. */
  datatype ReaderKind = BytesReaderKind | StringsReaderKind | OtherReaderKind

  /** A caller's `io.Reader`: its kind and the bytes it has not yet yielded. */
  datatype Stream = Stream(kind: ReaderKind, unread: Bytes)

  /** The request body, classified by the dynamic type the body reader
      switches on: nil, `[]byte`, `string`, `*bytes.Buffer`, an `io.Reader`,
      `url.Values`, or any other value. */
  datatype BodyValue =
    | NilBody
    | ByteSlice(bytes: Bytes)
    | StringBody(str: Bytes)
    | Buffer(buffered: Bytes)
    | ReaderBody(stream: Stream)
    | FormBody(form: Query.FormValues)
    | OtherBody(value: Value)

  /** The `Options` struct, without its two function-typed fields. */
  datatype Options = Options(
    verb: Bytes,
    url: Bytes,
    path: seq<Bytes>,
    params: map<Bytes, Value>,
    header: HeaderMap,
    cookies: seq<HttpCookie>,
    body: BodyValue,
    timeout: int64,
    trace: bool,
    verify: bool)

  /** One functional option. A Go map argument (`Params`, `Headers`) is the
      list of its entries in the order `range` visited them. */
  datatype RequestOption =
    | Method(verb: Bytes)
    | URL(url: Bytes)
    | Path(segment: Bytes)
    | Params(query: seq<(Bytes, Value)>)
    | Param(name: Bytes, arg: Value)
    | Body(body: BodyValue)
    | Form(form: Query.FormValues)
    | Header(key: Bytes, val: Bytes)
    | Headers(kv: seq<(Bytes, Bytes)>)
    | Cookie(cookie: HttpCookie)
    | Cookies(list: seq<HttpCookie>)
    | Timeout(timeout: int64)
    | Trace(trace: bool)
    | Verify(verify: bool)

  const MethodGet: RequestOption := Method("GET")
  const MethodPost: RequestOption := Method("POST")

  const FORM_CONTENT_TYPE: Bytes := "application/x-www-form-urlencoded"

  /** `BasicAuth(user, pass)`: an `Authorization` header in the Basic scheme
      of section 2 of RFC 7617. */
  function BasicAuth(user: Bytes, pass: Bytes): (o: RequestOption)
    ensures o.Header? && o.key == "Authorization"
    ensures |o.val| >= 6 && o.val[..6] == "Basic "
  {
    Header("Authorization", "Basic " + Base64.Encode(user + ":" + pass))
  }

  /** The credentials travel intact: the text after `Basic ` decodes to
      `user:pass`. */
  lemma BasicAuthCarriesCredentials(user: Bytes, pass: Bytes)
    ensures Base64.Decode(BasicAuth(user, pass).val[6..]) == Some(user + ":" + pass)
  {
    var v := BasicAuth(user, pass).val;
    assert v[6..] == Base64.Encode(user + ":" + pass);
    Base64.RoundTrip(user + ":" + pass);
  }

  /** The fields of `Options`, to say which ones an option may touch. */
  datatype Field =
    | MethodField | UrlField | PathField | ParamsField | HeaderField
    | CookiesField | BodyField | TimeoutField | TraceField | VerifyField

  predicate SameField(a: Options, b: Options, f: Field)
  {
    match f
    case MethodField => a.verb == b.verb
    case UrlField => a.url == b.url
    case PathField => a.path == b.path
    case ParamsField => a.params == b.params
    case HeaderField => a.header == b.header
    case CookiesField => a.cookies == b.cookies
    case BodyField => a.body == b.body
    case TimeoutField => a.timeout == b.timeout
    case TraceField => a.trace == b.trace
    case VerifyField => a.verify == b.verify
  }

  /** The fields each option writes to, read off the closures in options.go. */
  function Touches(opt: RequestOption): set<Field>
  {
    match opt
    case Method(_) => {MethodField}
    case URL(_) => {UrlField}
    case Path(_) => {PathField}
    case Params(_) => {ParamsField}
    case Param(_, _) => {ParamsField}
    case Body(_) => {BodyField}
    case Form(_) => {HeaderField, BodyField}
    case Header(_, _) => {HeaderField}
    case Headers(_) => {HeaderField}
    case Cookie(_) => {CookiesField}
    case Cookies(_) => {CookiesField}
    case Timeout(_) => {TimeoutField}
    case Trace(_) => {TraceField}
    case Verify(_) => {VerifyField}
  }

  /** The options that set one field outright, so that the last one wins. */
  predicate IsSetter(opt: RequestOption)
  {
    opt.Method? || opt.URL? || opt.Body? || opt.Timeout? || opt.Trace? || opt.Verify?
  }

  /** `for k, v := range query { o.Params[k] = v }`. */
  function MergeParams(m: map<Bytes, Value>, q: seq<(Bytes, Value)>): map<Bytes, Value>
    decreases q
  {
    if q == [] then m else MergeParams(m[q[0].0 := q[0].1], q[1..])
  }

  /** The map a list of entries stands for, a later entry overriding an
      earlier one on the same key. */
  function EntryMap<V>(q: seq<(Bytes, V)>): map<Bytes, V>
  {
    if q == [] then map[] else map[q[0].0 := q[0].1] + EntryMap(q[1..])
  }

  /** `Params` merges key by key: the given keys take the given values and
      every other key keeps its value. */
  lemma {:induction false} MergeParamsIsUnion(m: map<Bytes, Value>, q: seq<(Bytes, Value)>)
    ensures MergeParams(m, q) == m + EntryMap(q)
    decreases q
  {
    if q != [] {
      MergeParamsIsUnion(m[q[0].0 := q[0].1], q[1..]);
      assert m[q[0].0 := q[0].1] + EntryMap(q[1..]) == m + (map[q[0].0 := q[0].1] + EntryMap(q[1..]));
    } else {
      assert m + map[] == m;
    }
  }

  /** `for k, v := range kv { o.Header.Add(k, v) }`. */
  function AddAll(h: HeaderMap, kv: seq<(Bytes, Bytes)>): HeaderMap
    decreases kv
  {
    if kv == [] then h else AddAll(Add(h, kv[0].0, kv[0].1), kv[1..])
  }

  /** What one option does to the `Options` it is applied to. */
  function ApplyOne(o: Options, opt: RequestOption): Options
  {
    match opt
    case Method(m) => o.(verb := m)
    case URL(u) => o.(url := u)
    case Path(p) => o.(path := o.path + [p])
    case Params(q) => o.(params := MergeParams(o.params, q))
    case Param(k, v) => o.(params := o.params[k := v])
    case Body(b) => o.(body := b)
    case Form(f) =>
      o.(header := Add(o.header, "content-type", FORM_CONTENT_TYPE), body := FormBody(f))
    case Header(k, v) => o.(header := Add(o.header, k, v))
    case Headers(kv) => o.(header := AddAll(o.header, kv))
    case Cookie(c) => o.(cookies := o.cookies + [c])
    case Cookies(cs) => o.(cookies := o.cookies + cs)
    case Timeout(t) => o.(timeout := t)
    case Trace(t) => o.(trace := t)
    case Verify(v) => o.(verify := v)
  }

  /** What each option writes: the scalar setters store their argument,
      `Path`, `Cookie` and `Cookies` append exactly what they are given,
      `Header` adds one value under the canonical key, `Param` stores its
      value under its key, and `Form` both adds the form content type to the
      header and replaces the body. */
  lemma ApplyOneEffects(o: Options, opt: RequestOption)
    ensures opt.Method? ==> ApplyOne(o, opt).verb == opt.verb
    ensures opt.URL? ==> ApplyOne(o, opt).url == opt.url
    ensures opt.Body? ==> ApplyOne(o, opt).body == opt.body
    ensures opt.Timeout? ==> ApplyOne(o, opt).timeout == opt.timeout
    ensures opt.Trace? ==> ApplyOne(o, opt).trace == opt.trace
    ensures opt.Verify? ==> ApplyOne(o, opt).verify == opt.verify
    ensures opt.Path? ==> ApplyOne(o, opt).path == o.path + [opt.segment]
    ensures opt.Cookie? ==> ApplyOne(o, opt).cookies == o.cookies + [opt.cookie]
    ensures opt.Cookies? ==> ApplyOne(o, opt).cookies == o.cookies + opt.list
    ensures opt.Header? ==> ApplyOne(o, opt).header == Add(o.header, opt.key, opt.val)
    ensures opt.Param? ==> opt.name in ApplyOne(o, opt).params && ApplyOne(o, opt).params[opt.name] == opt.arg
    ensures opt.Form? ==> (ApplyOne(o, opt).body == FormBody(opt.form)
      && Values(ApplyOne(o, opt).header, Canonical("content-type")) == Values(o.header, Canonical("content-type")) + [FORM_CONTENT_TYPE])
    ensures opt.Form? ==> ApplyOne(o, opt).header == Add(o.header, "content-type", FORM_CONTENT_TYPE)
  {
  }

  /** An option leaves every field outside `Touches(opt)` as it was. */
  lemma ApplyOneFrame(o: Options, opt: RequestOption, f: Field)
    requires f !in Touches(opt)
    ensures SameField(o, ApplyOne(o, opt), f)
  {
  }

  /** The option loop: each option in turn, from left to right. */
  function Apply(o: Options, opts: seq<RequestOption>): Options
    decreases opts
  {
    if opts == [] then o else Apply(ApplyOne(o, opts[0]), opts[1..])
  }

  lemma ApplySingle(o: Options, opt: RequestOption)
    ensures Apply(o, [opt]) == ApplyOne(o, opt)
  {
    assert [opt][1..] == [];
  }

  /** `newOptions`: method GET, empty params and header, timeout 30000,
      no trace and no verification; then the options. */
  function NewOptions(opts: seq<RequestOption>): Options
  {
    Apply(Options("GET", [], [], map[], map[], [], NilBody, 30000, false, false), opts)
  }

  /** The defaults of `newOptions`, and the options folded over them. */
  lemma NewOptionsDefaults(opts: seq<RequestOption>)
    ensures var d := NewOptions([]);
      && d.verb == "GET" && d.url == [] && d.path == [] && d.params == map[]
      && d.header == map[] && d.cookies == [] && d.body == NilBody
      && d.timeout == 30000 && !d.trace && !d.verify
    ensures NewOptions(opts) == Apply(NewOptions([]), opts)
  {
  }

  /** Folding two option lists one after the other is folding their
      concatenation: applying `Init` options and then per-call options is the
      same as applying all of them at once. */
  lemma {:induction false} ApplyConcat(o: Options, a: seq<RequestOption>, b: seq<RequestOption>)
    ensures Apply(o, a + b) == Apply(Apply(o, a), b)
    decreases a
  {
    if a == [] {
      assert a + b == b;
    } else {
      assert (a + b)[0] == a[0] && (a + b)[1..] == a[1..] + b;
      ApplyConcat(ApplyOne(o, a[0]), a[1..], b);
    }
  }

  /** A setter applied twice has the effect of applying it once. */
  lemma SetterIdempotent(o: Options, s: RequestOption)
    requires IsSetter(s)
    ensures ApplyOne(ApplyOne(o, s), s) == ApplyOne(o, s)
  {
  }

  /** Of two setters of the same field, the later one wins. */
  lemma LaterSetterWins(o: Options, s1: RequestOption, s2: RequestOption)
    requires IsSetter(s1) && IsSetter(s2) && Touches(s1) == Touches(s2)
    ensures ApplyOne(ApplyOne(o, s1), s2) == ApplyOne(o, s2)
  {
  }

  /** One `Cookie` option per cookie, in order. */
  function EachCookie(cs: seq<HttpCookie>): seq<RequestOption>
  {
    if cs == [] then [] else [Cookie(cs[0])] + EachCookie(cs[1..])
  }

  /** One `Header` option per entry, in the order visited. */
  function EachHeader(kv: seq<(Bytes, Bytes)>): seq<RequestOption>
  {
    if kv == [] then [] else [Header(kv[0].0, kv[0].1)] + EachHeader(kv[1..])
  }

  /** One `Param` option per entry, in the order visited. */
  function EachParam(q: seq<(Bytes, Value)>): seq<RequestOption>
  {
    if q == [] then [] else [Param(q[0].0, q[0].1)] + EachParam(q[1..])
  }

  lemma ApplyCons(o: Options, opt: RequestOption, rest: seq<RequestOption>)
    ensures Apply(o, [opt] + rest) == Apply(ApplyOne(o, opt), rest)
  {
    assert ([opt] + rest)[0] == opt && ([opt] + rest)[1..] == rest;
  }

  /** `Cookies(cs...)` is `Cookie(c)` for each cookie in order. */
  lemma {:induction false} CookiesIsEachCookie(o: Options, cs: seq<HttpCookie>)
    ensures ApplyOne(o, Cookies(cs)) == Apply(o, EachCookie(cs))
    decreases cs
  {
    if cs == [] {
      assert o.cookies + cs == o.cookies;
    } else {
      var o' := ApplyOne(o, Cookie(cs[0]));
      CookiesIsEachCookie(o', cs[1..]);
      ApplyCons(o, Cookie(cs[0]), EachCookie(cs[1..]));
      assert o.cookies + cs == o'.cookies + cs[1..];
    }
  }

  /** `Headers(kv)` is `Header(k, v)` for each entry in the order visited. */
  lemma {:induction false} HeadersIsEachHeader(o: Options, kv: seq<(Bytes, Bytes)>)
    ensures ApplyOne(o, Headers(kv)) == Apply(o, EachHeader(kv))
    decreases kv
  {
    if kv != [] {
      var o' := ApplyOne(o, Header(kv[0].0, kv[0].1));
      HeadersIsEachHeader(o', kv[1..]);
      ApplyCons(o, Header(kv[0].0, kv[0].1), EachHeader(kv[1..]));
      assert ApplyOne(o, Headers(kv)) == ApplyOne(o', Headers(kv[1..]));
    }
  }

  /** `Params(q)` is `Param(k, v)` for each entry in the order visited. */
  lemma {:induction false} ParamsIsEachParam(o: Options, q: seq<(Bytes, Value)>)
    ensures ApplyOne(o, Params(q)) == Apply(o, EachParam(q))
    decreases q
  {
    if q != [] {
      var o' := ApplyOne(o, Param(q[0].0, q[0].1));
      ParamsIsEachParam(o', q[1..]);
      ApplyCons(o, Param(q[0].0, q[0].1), EachParam(q[1..]));
      assert ApplyOne(o, Params(q)) == ApplyOne(o', Params(q[1..]));
    }
  }

  /** `a` is a prefix of `b`. */
  predicate Prefix<T(==)>(a: seq<T>, b: seq<T>)
  {
    |a| <= |b| && b[..|a|] == a
  }

  lemma AddGrows(h: HeaderMap, key: Bytes, v: Bytes, k: Bytes)
    ensures Prefix(Values(h, k), Values(Add(h, key, v), k))
  {
    if k == Canonical(key) {
      assert (Values(h, k) + [v])[..|Values(h, k)|] == Values(h, k);
    }
  }

  lemma {:induction false} AddAllGrows(h: HeaderMap, kv: seq<(Bytes, Bytes)>, k: Bytes)
    ensures Prefix(Values(h, k), Values(AddAll(h, kv), k))
    decreases kv
  {
    if kv != [] {
      var h' := Add(h, kv[0].0, kv[0].1);
      AddAllGrows(h', kv[1..], k);
      AddGrows(h, kv[0].0, kv[0].1, k);
      PrefixTransitive(Values(h, k), Values(h', k), Values(AddAll(h', kv[1..]), k));
    }
  }

  lemma ApplyOneGrows(o: Options, opt: RequestOption, k: Bytes)
    ensures Prefix(Values(o.header, k), Values(ApplyOne(o, opt).header, k))
  {
    match opt
    case Header(key, v) => AddGrows(o.header, key, v, k);
    case Form(_) => AddGrows(o.header, "content-type", FORM_CONTENT_TYPE, k);
    case Headers(kv) => AddAllGrows(o.header, kv, k);
    case _ =>
  }

  /** No option removes or reorders a header value: under every key, the
      values before the fold are a prefix of the values after it. */
  lemma {:induction false} HeaderValuesOnlyGrow(o: Options, opts: seq<RequestOption>, k: Bytes)
    ensures Prefix(Values(o.header, k), Values(Apply(o, opts).header, k))
    decreases opts
  {
    if opts != [] {
      var o' := ApplyOne(o, opts[0]);
      HeaderValuesOnlyGrow(o', opts[1..], k);
      ApplyOneGrows(o, opts[0], k);
      PrefixTransitive(Values(o.header, k), Values(o'.header, k), Values(Apply(o', opts[1..]).header, k));
    }
  }

  lemma PrefixTransitive<T>(a: seq<T>, b: seq<T>, c: seq<T>)
    requires Prefix(a, b) && Prefix(b, c)
    ensures Prefix(a, c)
  {
    assert c[..|a|] == c[..|b|][..|a|];
  }

  /** Likewise the path segments and the cookies of the fold start with
      those it was given. */
  lemma {:induction false} PathAndCookiesOnlyGrow(o: Options, opts: seq<RequestOption>)
    ensures Prefix(o.path, Apply(o, opts).path)
    ensures Prefix(o.cookies, Apply(o, opts).cookies)
    decreases opts
  {
    if opts != [] {
      var o' := ApplyOne(o, opts[0]);
      var r := Apply(o', opts[1..]);
      PathAndCookiesOnlyGrow(o', opts[1..]);
      ApplyOnePathCookies(o, opts[0]);
      PrefixTransitive(o.path, o'.path, r.path);
      PrefixTransitive(o.cookies, o'.cookies, r.cookies);
    }
  }

  lemma ApplyOnePathCookies(o: Options, opt: RequestOption)
    ensures Prefix(o.path, ApplyOne(o, opt).path)
    ensures Prefix(o.cookies, ApplyOne(o, opt).cookies)
  {
    match opt
    case Path(p) => assert (o.path + [p])[..|o.path|] == o.path;
    case Cookie(c) => assert (o.cookies + [c])[..|o.cookies|] == o.cookies;
    case Cookies(cs) => assert (o.cookies + cs)[..|o.cookies|] == o.cookies;
    case _ =>
  }

  /** Every header key the fold creates holds a value, so reading the first
      value of each key is always defined. */
  lemma {:induction false} ApplyKeepsNonEmptyLists(o: Options, opts: seq<RequestOption>)
    requires NonEmptyLists(o.header)
    ensures NonEmptyLists(Apply(o, opts).header)
    decreases opts
  {
    if opts != [] {
      ApplyOneKeepsNonEmpty(o, opts[0]);
      ApplyKeepsNonEmptyLists(ApplyOne(o, opts[0]), opts[1..]);
    }
  }

  lemma ApplyOneKeepsNonEmpty(o: Options, opt: RequestOption)
    requires NonEmptyLists(o.header)
    ensures NonEmptyLists(ApplyOne(o, opt).header)
  {
    match opt
    case Header(key, v) => AddKeepsNonEmpty(o.header, key, v);
    case Form(_) => AddKeepsNonEmpty(o.header, "content-type", FORM_CONTENT_TYPE);
    case Headers(kv) => AddAllKeepsNonEmpty(o.header, kv);
    case _ =>
  }

  lemma {:induction false} AddAllKeepsNonEmpty(h: HeaderMap, kv: seq<(Bytes, Bytes)>)
    requires NonEmptyLists(h)
    ensures NonEmptyLists(AddAll(h, kv))
    decreases kv
  {
    if kv != [] {
      AddAllKeepsNonEmpty(Add(h, kv[0].0, kv[0].1), kv[1..]);
    }
  }
}

=== FILE: platform.dfy ===
/** The parts of Go's standard library that the request core calls but that
    are not modelled here: URL parsing and printing, decoding JSON text into
    an object, and time formatting. They are passed around as a `Library`
    of total functions, so every property below holds for any behaviour of
    them. */
module Platform {
  import opened Base

  /** The fields of a `*url.URL` the core reads or writes. */
  datatype Url = Url(scheme: Bytes, host: Bytes, path: Bytes, rawQuery: Bytes)

  /** A `context.Context`: the background context or one the caller passes. */
  datatype Context = Background | Caller(id: nat)

  /** The result of `json.Unmarshal` into a `map[string]any`: member names
      and the JSON text of each member. */
  datatype JsonObject = JsonObject(members: map<Bytes, Bytes>)

  datatype Library = Library(
    parseUrl: Bytes -> Result<Url>,           // url.Parse
    renderUrl: Url -> Bytes,                  // (*url.URL).String
    decodeObject: Bytes -> Option<JsonObject>, // json.Unmarshal into a map; None on error
    formatTime: int -> Bytes)                 // time.Time.Format("2006-01-02 15:04:05.000")
}

=== FILE: query.dfy ===
/** Query-component escaping and `application/x-www-form-urlencoded` encoding,
    as Go's `net/url` performs them: `QueryEscape` (sections 2.1 and 2.3 of
    RFC 3986, with space written as `+`) and `url.Values.Encode`. The decoders
    are the inverse a server applies; they are stated here as the partners
    that the encoders are proved against. */
module Query {
  import opened Base
  import opened Text

  /** The unreserved characters of section 2.3 of RFC 3986. */
  predicate Unreserved(c: byte)
  {
    ('A' <= c <= 'Z') || ('a' <= c <= 'z') || ('0' <= c <= '9')
    || c == '-' || c == '.' || c == '_' || c == '~'
  }

  /** Upper-case hexadecimal digit, as section 2.1 of RFC 3986 recommends. */
  function HexDigit(d: nat): (c: byte)
    requires d < 16
    ensures '0' <= c <= '9' || 'A' <= c <= 'F'
    ensures HexValue(c) == Some(d)
  {
    if d < 10 then ('0' as int + d) as char else ('A' as int + d - 10) as char
  }

  /** Value of a hexadecimal digit of either case. */
  function HexValue(c: byte): (r: Option<nat>)
    ensures r.Some? ==> r.value < 16
  {
    if '0' <= c <= '9' then Some(c as int - '0' as int)
    else if 'A' <= c <= 'F' then Some(c as int - 'A' as int + 10)
    else if 'a' <= c <= 'f' then Some(c as int - 'a' as int + 10)
    else None
  }

  /** The escape of one byte: unreserved bytes stay, space becomes `+`,
      everything else becomes `%XX`. */
  function EscapeByte(c: byte): (r: Bytes)
    ensures Unreserved(c) ==> r == [c]
    ensures c == ' ' ==> r == ['+']
    ensures !Unreserved(c) && c != ' ' ==>
      |r| == 3 && r[0] == '%' && HexValue(r[1]) == Some(c as int / 16) && HexValue(r[2]) == Some(c as int % 16)
  {
    if Unreserved(c) then [c]
    else if c == ' ' then ['+']
    else ['%', HexDigit(c as int / 16), HexDigit(c as int % 16)]
  }

  /** A byte that can appear in the output of `QueryEscape`. */
  predicate EscapedByte(c: byte)
  {
    Unreserved(c) || c == '%' || c == '+'
  }

  /** `url.QueryEscape(s)`. The output only uses unreserved bytes, `%` and
      `+`, so it never contains the `&` and `=` that delimit a query. */
  function QueryEscape(s: Bytes): (r: Bytes)
    ensures forall i :: 0 <= i < |r| ==> EscapedByte(r[i])
    ensures |s| <= |r| <= 3 * |s|
  {
    if s == [] then [] else EscapeByte(s[0]) + QueryEscape(s[1..])
  }

  lemma EscapedIsDelimiterFree(r: Bytes)
    requires forall i :: 0 <= i < |r| ==> EscapedByte(r[i])
    ensures Free(r, '&') && Free(r, '=') && Free(r, ';')
  {
  }

  /** `url.QueryUnescape(s)`: `%XX` becomes the byte, `+` becomes a space;
      a `%` not followed by two hex digits is an error. */
  function QueryUnescape(s: Bytes): Option<Bytes>
  {
    if s == [] then Some([])
    else if s[0] == '%' then
      if |s| < 3 || HexValue(s[1]).None? || HexValue(s[2]).None? then None
      else
        match QueryUnescape(s[3..])
        case None => None
        case Some(rest) => Some([(HexValue(s[1]).value * 16 + HexValue(s[2]).value) as char] + rest)
    else
      match QueryUnescape(s[1..])
      case None => None
      case Some(rest) => Some([if s[0] == '+' then ' ' else s[0]] + rest)
  }

  /** Unescaping undoes escaping, for every byte string. */
  lemma {:induction false} QueryEscapeRoundTrip(s: Bytes)
    ensures QueryUnescape(QueryEscape(s)) == Some(s)
  {
    if s != [] {
      var c := s[0];
      var e := EscapeByte(c);
      var tail := QueryEscape(s[1..]);
      QueryEscapeRoundTrip(s[1..]);
      assert QueryEscape(s) == e + tail;
      if Unreserved(c) || c == ' ' {
        assert (e + tail)[1..] == tail;
      } else {
        UnescapePercentByte(c, tail, s[1..]);
      }
      assert [s[0]] + s[1..] == s;
    }
  }

  /** One `%XX` escape followed by text that unescapes to `rest` unescapes
      to the escaped byte followed by `rest`. */
  lemma UnescapePercentByte(c: byte, tail: Bytes, rest: Bytes)
    requires !Unreserved(c) && c != ' '
    requires QueryUnescape(tail) == Some(rest)
    ensures QueryUnescape(EscapeByte(c) + tail) == Some([c] + rest)
  {
    var e := EscapeByte(c);
    assert (e + tail)[3..] == tail;
    assert (e + tail)[1] == e[1] && (e + tail)[2] == e[2];
    assert (c as int / 16) * 16 + c as int % 16 == c as int;
  }

  /** One key of a `url.Values` and its values, in order. */
  datatype FormField = FormField(key: Bytes, values: seq<Bytes>)

  predicate KeysAscending(fs: seq<FormField>)
  {
    forall i, j :: 0 <= i < j < |fs| ==> Less(fs[i].key, fs[j].key)
  }

  /** A `url.Values` map, listed in ascending key order, which is the order
      in which `Encode` visits it. */
  type FormValues = fs: seq<FormField> | KeysAscending(fs)

  /** The map a `FormValues` listing stands for. */
  function FormMap(fs: seq<FormField>): map<Bytes, seq<Bytes>>
  {
    if fs == [] then map[] else FormMap(fs[1..])[fs[0].key := fs[0].values]
  }

  lemma {:induction false} FormMapAbsent(fs: seq<FormField>, k: Bytes)
    requires forall i :: 0 <= i < |fs| ==> fs[i].key != k
    ensures k !in FormMap(fs)
  {
    if fs != [] {
      assert forall i :: 0 <= i < |fs[1..]| ==> fs[1..][i] == fs[i + 1];
      FormMapAbsent(fs[1..], k);
    }
  }

  /** Every (key, value) pair, key by key and value by value. */
  function Pairs(fs: seq<FormField>): seq<(Bytes, Bytes)>
  {
    if fs == [] then [] else Group(fs[0].key, fs[0].values) + Pairs(fs[1..])
  }

  function Group(k: Bytes, vs: seq<Bytes>): (r: seq<(Bytes, Bytes)>)
    ensures |r| == |vs|
    ensures forall i :: 0 <= i < |r| ==> r[i] == (k, vs[i])
  {
    if vs == [] then [] else [(k, vs[0])] + Group(k, vs[1..])
  }

  /** `QueryEscape(k) + "=" + QueryEscape(v)` for each pair. */
  function EncodePairs(ps: seq<(Bytes, Bytes)>): (r: seq<Bytes>)
    ensures |r| == |ps|
    ensures forall i :: 0 <= i < |r| ==> r[i] == QueryEscape(ps[i].0) + "=" + QueryEscape(ps[i].1)
  {
    if ps == [] then [] else [QueryEscape(ps[0].0) + "=" + QueryEscape(ps[0].1)] + EncodePairs(ps[1..])
  }

  /** `url.Values.Encode()`: the escaped pairs joined by `&`; a key with no
      values contributes nothing, and the empty map encodes to "". */
  function EncodeForm(fs: FormValues): Bytes
  {
    Join(EncodePairs(Pairs(fs)), '&')
  }

  /** `m[k] = append(m[k], vs...)`. */
  function Extend(m: map<Bytes, seq<Bytes>>, k: Bytes, vs: seq<Bytes>): map<Bytes, seq<Bytes>>
  {
    m[k := (if k in m then m[k] else []) + vs]
  }

  lemma ExtendTwice(m: map<Bytes, seq<Bytes>>, k: Bytes, a: seq<Bytes>, b: seq<Bytes>)
    ensures Extend(Extend(m, k, a), k, b) == Extend(m, k, a + b)
  {
    var pre := if k in m then m[k] else [];
    assert pre + a + b == pre + (a + b);
  }

  /** The query parser's accumulation: each pair appends its value to the
      list under its key. */
  function AddPairs(m: map<Bytes, seq<Bytes>>, ps: seq<(Bytes, Bytes)>): map<Bytes, seq<Bytes>>
    decreases ps
  {
    if ps == [] then m
    else
      var k := ps[0].0;
      AddPairs(Extend(m, k, [ps[0].1]), ps[1..])
  }

  /** Bytes before the first `=` and after it; the whole piece and "" when
      there is none (`strings.Cut`). */
  function Cut(s: Bytes): (Bytes, Bytes)
  {
    if s == [] then ([], [])
    else if s[0] == '=' then ([], s[1..])
    else var (k, v) := Cut(s[1..]); ([s[0]] + k, v)
  }

  /** Decoding of `&`-separated pieces, skipping empty ones, failing on a
      semicolon or a malformed escape. */
  function DecodePieces(m: map<Bytes, seq<Bytes>>, pieces: seq<Bytes>): Option<map<Bytes, seq<Bytes>>>
    decreases pieces
  {
    if pieces == [] then Some(m)
    else if pieces[0] == [] then DecodePieces(m, pieces[1..])
    else if !Free(pieces[0], ';') then None
    else
      var (k, v) := Cut(pieces[0]);
      match (QueryUnescape(k), QueryUnescape(v))
      case (Some(key), Some(value)) =>
        DecodePieces(Extend(m, key, [value]), pieces[1..])
      case _ => None
  }

  /** `url.ParseQuery(s)`. */
  function ParseForm(s: Bytes): Option<map<Bytes, seq<Bytes>>>
  {
    DecodePieces(map[], Split(s, '&'))
  }

  lemma {:induction false} CutEscaped(k: Bytes, v: Bytes)
    requires Free(k, '=')
    ensures Cut(k + "=" + v) == (k, v)
  {
    if k == [] {
      assert k + "=" + v == ['='] + v;
    } else {
      assert (k + "=" + v)[1..] == k[1..] + "=" + v;
      CutEscaped(k[1..], v);
      assert [k[0]] + k[1..] == k;
    }
  }

  /** An encoded pair holds neither of the delimiters of a query. */
  lemma PieceFree(k: Bytes, v: Bytes)
    ensures var piece := QueryEscape(k) + "=" + QueryEscape(v);
      Free(piece, '&') && Free(piece, ';')
  {
    var ek, ev := QueryEscape(k), QueryEscape(v);
    var piece := ek + "=" + ev;
    EscapedIsDelimiterFree(ek);
    EscapedIsDelimiterFree(ev);
    forall i | 0 <= i < |piece| ensures piece[i] != '&' && piece[i] != ';' {
      if i < |ek| { assert piece[i] == ek[i]; }
      else if i > |ek| { assert piece[i] == ev[i - |ek| - 1]; }
    }
  }

  lemma {:induction false} DecodeEncodedPairs(m: map<Bytes, seq<Bytes>>, ps: seq<(Bytes, Bytes)>)
    ensures DecodePieces(m, EncodePairs(ps)) == Some(AddPairs(m, ps))
    decreases ps
  {
    if ps != [] {
      var (k, v) := ps[0];
      var ek, ev := QueryEscape(k), QueryEscape(v);
      var piece := ek + "=" + ev;
      assert EncodePairs(ps)[0] == piece && EncodePairs(ps)[1..] == EncodePairs(ps[1..]);
      assert piece != [] by { assert piece[|ek|] == '='; }
      PieceFree(k, v);
      EscapedIsDelimiterFree(ek);
      CutEscaped(ek, ev);
      QueryEscapeRoundTrip(k);
      QueryEscapeRoundTrip(v);
      DecodeEncodedPairs(Extend(m, k, [v]), ps[1..]);
    }
  }

  lemma {:induction false} AddPairsAppend(m: map<Bytes, seq<Bytes>>, a: seq<(Bytes, Bytes)>, b: seq<(Bytes, Bytes)>)
    ensures AddPairs(m, a + b) == AddPairs(AddPairs(m, a), b)
    decreases a
  {
    if a != [] {
      assert (a + b)[0] == a[0] && (a + b)[1..] == a[1..] + b;
      var k := a[0].0;
      AddPairsAppend(Extend(m, k, [a[0].1]), a[1..], b);
    } else {
      assert a + b == b;
    }
  }

  lemma {:induction false} AddGroup(m: map<Bytes, seq<Bytes>>, k: Bytes, vs: seq<Bytes>)
    ensures AddPairs(m, Group(k, vs)) == if vs == [] then m else Extend(m, k, vs)
    decreases vs
  {
    if vs != [] {
      var m' := Extend(m, k, [vs[0]]);
      AddGroup(m', k, vs[1..]);
      var g := Group(k, vs);
      assert g[0] == (k, vs[0]) && g[1..] == Group(k, vs[1..]);
      assert AddPairs(m, g) == AddPairs(m', Group(k, vs[1..]));
      assert [vs[0]] + vs[1..] == vs;
      if vs[1..] != [] {
        ExtendTwice(m, k, [vs[0]], vs[1..]);
      } else {
        assert vs == [vs[0]];
      }
    }
  }

  lemma {:induction false} AddPairsForm(m: map<Bytes, seq<Bytes>>, fs: seq<FormField>)
    requires KeysAscending(fs)
    requires forall i :: 0 <= i < |fs| ==> fs[i].key !in m && fs[i].values != []
    ensures AddPairs(m, Pairs(fs)) == m + FormMap(fs)
    decreases fs
  {
    if fs == [] {
      assert m + map[] == m;
    } else {
      var f := fs[0];
      var rest := fs[1..];
      assert Pairs(fs) == Group(f.key, f.values) + Pairs(rest);
      assert FormMap(fs) == FormMap(rest)[f.key := f.values];
      AddPairsAppend(m, Group(f.key, f.values), Pairs(rest));
      AddGroup(m, f.key, f.values);
      var m' := m[f.key := f.values];
      assert f.key !in m && [] + f.values == f.values;
      assert AddPairs(m, Group(f.key, f.values)) == m';
      assert KeysAscending(rest) by {
        forall i, j | 0 <= i < j < |rest| ensures Less(rest[i].key, rest[j].key) {
          assert rest[i] == fs[i + 1] && rest[j] == fs[j + 1];
        }
      }
      forall i | 0 <= i < |rest| ensures rest[i].key != f.key {
        assert rest[i] == fs[i + 1];
        assert Less(f.key, fs[i + 1].key);
        if fs[i + 1].key == f.key { LessIrreflexive(f.key); }
      }
      forall i | 0 <= i < |rest| ensures rest[i].key !in m' && rest[i].values != [] {
        assert rest[i] == fs[i + 1];
      }
      AddPairsForm(m', rest);
      FormMapAbsent(rest, f.key);
      MapUpdateUnion(m, FormMap(rest), f.key, f.values);
    }
  }

  lemma MapUpdateUnion<K, V>(m: map<K, V>, n: map<K, V>, k: K, v: V)
    requires k !in n
    ensures m[k := v] + n == m + n[k := v]
  {
  }

  /** Parsing the encoding of a form gives back the form, provided every key
      carries at least one value (a key without values is not encoded). */
  lemma {:induction false} FormRoundTrip(fs: FormValues)
    requires forall i :: 0 <= i < |fs| ==> fs[i].values != []
    ensures ParseForm(EncodeForm(fs)) == Some(FormMap(fs))
  {
    var pieces := EncodePairs(Pairs(fs));
    AddPairsForm(map[], fs);
    assert map[] + FormMap(fs) == FormMap(fs);
    DecodeEncodedPairs(map[], Pairs(fs));
    if pieces == [] {
      assert Split([], '&') == [[]];
      assert DecodePieces(map[], [[]]) == Some(map[]);
    } else {
      forall i | 0 <= i < |pieces| ensures Free(pieces[i], '&') {
        PieceFree(Pairs(fs)[i].0, Pairs(fs)[i].1);
      }
      SplitJoin(pieces, '&');
    }
  }
}

=== FILE: request.dfy ===
/** Turning an `Options` value into an `*http.Request` (request.go): the body
    reader dispatch, the standard library's request constructor as far as
    this core depends on it, and the path, query, header and cookie steps. */
module Request {
  import opened Base
  import opened Text
  import opened HttpHeader
  import Query
  import opened Options
  import opened Platform

  /** The fields of an `*http.Request` the core sets or reads. `body` is None
      for a nil body and for `http.NoBody`; `getBody` is the snapshot that
      `GetBody` replays, None when `GetBody` is nil. */
  datatype HttpRequest = HttpRequest(
    verb: Bytes,
    url: Url,
    header: HeaderMap,
    body: Option<Stream>,
    contentLength: int,
    getBody: Option<Bytes>,
    ctx: Context)

  /** A reader `http.NewRequest` can measure and replay. */
  predicate Replayable(s: Stream)
  {
    s.kind == BytesReaderKind || s.kind == StringsReaderKind
  }

  /** `bodyReader`: nil gives no reader; bytes, strings and buffers are read
      as they are; a caller's reader is passed through; a form is read as its
      encoding; anything else is read as its JSON encoding, and a marshal
      error is returned instead of a reader. */
  function BodyReader(body: BodyValue): (r: Result<Option<Stream>>)
    ensures r == Ok(None) <==> body.NilBody?
    ensures r.Fail? <==> body.OtherBody? && body.value.json.Fail?
    ensures r.Fail? ==> r.error == body.value.json.error
    ensures body.ByteSlice? ==> r == Ok(Some(Stream(BytesReaderKind, body.bytes)))
    ensures body.StringBody? ==> r == Ok(Some(Stream(StringsReaderKind, body.str)))
    ensures body.Buffer? ==> r == Ok(Some(Stream(BytesReaderKind, body.buffered)))
    ensures body.ReaderBody? ==> r == Ok(Some(body.stream))
    ensures body.OtherBody? && body.value.json.Ok? ==> r == Ok(Some(Stream(BytesReaderKind, body.value.json.value)))
    ensures r.Ok? && r.value.Some? && !body.ReaderBody? ==> Replayable(r.value.value)
  {
    match body
    case NilBody => Ok(None)
    case ByteSlice(b) => Ok(Some(Stream(BytesReaderKind, b)))
    case StringBody(t) => Ok(Some(Stream(StringsReaderKind, t)))
    case Buffer(b) => Ok(Some(Stream(BytesReaderKind, b)))
    case ReaderBody(s) => Ok(Some(s))
    case FormBody(f) => Ok(Some(Stream(StringsReaderKind, Query.EncodeForm(f))))
    case OtherBody(v) =>
      match v.json
      case Fail(e) => Fail(e)
      case Ok(j) => Ok(Some(Stream(BytesReaderKind, j)))
  }

  /** A form body is read as text that parses back to the form it came from. */
  lemma BodyReaderForm(f: Query.FormValues)
    requires forall i :: 0 <= i < |f| ==> f[i].values != []
    ensures var r := BodyReader(FormBody(f));
      && r.Ok? && r.value.Some? && r.value.value.kind == StringsReaderKind
      && Query.ParseForm(r.value.value.unread) == Some(Query.FormMap(f))
  {
    Query.FormRoundTrip(f);
  }

  /** A method name `http.NewRequest` accepts: a non-empty token. */
  predicate ValidMethod(m: Bytes)
  {
    |m| > 0 && IsToken(m)
  }

  /** `http.NewRequestWithContext(ctx, method, url, body)`: an empty method
      means GET, an invalid one is an error, then the URL is parsed; a
      replayable body gets a content length and a `GetBody`, and an empty
      one is replaced by `http.NoBody`. */
  function StdNewRequest(lib: Library, ctx: Context, verb: Bytes, url: Bytes, body: Option<Stream>): (r: Result<HttpRequest>)
    ensures var m := if verb == [] then "GET" else verb;
      && (r.Ok? <==> ValidMethod(m) && lib.parseUrl(url).Ok?)
      && (!ValidMethod(m) ==> r.Fail? && Message(r.error) == "net/http: invalid method \"" + verb + "\"")
      && (ValidMethod(m) && lib.parseUrl(url).Fail? ==> r == Fail(lib.parseUrl(url).error))
      && (r.Ok? ==> r.value.verb == m && r.value.url == lib.parseUrl(url).value
                    && r.value.header == map[] && r.value.ctx == ctx)
    ensures r.Ok? && body.Some? && Replayable(body.value) ==>
      r.value.contentLength == |body.value.unread| && r.value.getBody == Some(body.value.unread)
      && r.value.body == (if body.value.unread == [] then None else body)
    ensures r.Ok? && (body.None? || !Replayable(body.value)) ==>
      r.value.contentLength == 0 && r.value.getBody.None? && r.value.body == body
  {
    var m := if verb == [] then "GET" else verb;
    if !ValidMethod(m) then Fail(Error("net/http: invalid method \"" + verb + "\""))
    else
      match lib.parseUrl(url)
      case Fail(e) => Fail(e)
      case Ok(u) =>
        if body.Some? && Replayable(body.value) then
          var data := body.value.unread;
          Ok(HttpRequest(m, u, map[], if data == [] then None else body, |data|, Some(data), ctx))
        else
          Ok(HttpRequest(m, u, map[], body, 0, None, ctx))
  }

  /** Go's map iteration order: every key of `m` exactly once. */
  ghost predicate Enumerates<V>(order: seq<Bytes>, m: map<Bytes, V>)
  {
    && (forall i, j :: 0 <= i < j < |order| ==> order[i] != order[j])
    && (forall k :: k in m <==> k in order)
  }

  /** The query piece of one parameter: the key as it is, `=`, and the
      escaped `%v` rendering of the value. */
  function QueryPiece(k: Bytes, v: Value): (p: Bytes)
    ensures p != []
  {
    k + "=" + Query.QueryEscape(v.shown)
  }

  function QueryPieces(order: seq<Bytes>, params: map<Bytes, Value>): (ps: seq<Bytes>)
    requires forall i :: 0 <= i < |order| ==> order[i] in params
    ensures |ps| == |order|
    ensures forall i :: 0 <= i < |ps| ==> ps[i] == QueryPiece(order[i], params[order[i]])
  {
    seq(|order|, i requires 0 <= i < |order| => QueryPiece(order[i], params[order[i]]))
  }

  /** The loop over `opt.Params` that extends `req.URL.RawQuery`. */
  function AppendParams(raw: Bytes, order: seq<Bytes>, params: map<Bytes, Value>): Bytes
    requires forall i :: 0 <= i < |order| ==> order[i] in params
    decreases order
  {
    if order == [] then raw
    else
      var k := order[0];
      var q := if raw != [] then raw + "&" else raw;
      AppendParams(q + k + "=" + Query.QueryEscape(params[k].shown), order[1..], params)
  }

  lemma {:induction false} AppendParamsGlues(raw: Bytes, order: seq<Bytes>, params: map<Bytes, Value>)
    requires forall i :: 0 <= i < |order| ==> order[i] in params
    ensures AppendParams(raw, order, params) == GlueAll(raw, QueryPieces(order, params), "&")
    decreases order
  {
    if order != [] {
      var ps := QueryPieces(order, params);
      var raw' := Glue(raw, ps[0], "&");
      assert raw' == (if raw != [] then raw + "&" else raw) + order[0] + "=" + Query.QueryEscape(params[order[0]].shown);
      AppendParamsGlues(raw', order[1..], params);
      assert QueryPieces(order[1..], params) == ps[1..];
    }
  }

  /** The query is the previous raw query (when there was one) and one piece
      per parameter, in visiting order, with `&` between neighbours only. */
  lemma AppendParamsJoin(raw: Bytes, order: seq<Bytes>, params: map<Bytes, Value>)
    requires forall i :: 0 <= i < |order| ==> order[i] in params
    ensures AppendParams(raw, order, params) == Join((if raw == [] then [] else [raw]) + QueryPieces(order, params), '&')
  {
    AppendParamsGlues(raw, order, params);
    GlueAllJoin(raw, QueryPieces(order, params), "&");
    JoinWithOneByte((if raw == [] then [] else [raw]) + QueryPieces(order, params), '&');
  }

  /** On a fresh query, and with keys free of `&`, splitting the query on `&`
      gives back exactly one piece per parameter. A key holding `&` is not
      escaped and would split into more pieces. */
  lemma QuerySplitsIntoPieces(order: seq<Bytes>, params: map<Bytes, Value>)
    requires |order| >= 1
    requires forall i :: 0 <= i < |order| ==> order[i] in params && Free(order[i], '&')
    ensures Split(AppendParams([], order, params), '&') == QueryPieces(order, params)
  {
    var ps := QueryPieces(order, params);
    forall i | 0 <= i < |ps|
      ensures Free(ps[i], '&')
    {
      var e := Query.QueryEscape(params[order[i]].shown);
      Query.EscapedIsDelimiterFree(e);
      FreeAppend(order[i], "=", '&');
      FreeAppend(order[i] + "=", e, '&');
    }
    AppendParamsJoin([], order, params);
    assert [] + ps == ps;
    SplitJoin(ps, '&');
  }

  /** `sanitizeCookieName`: CR and LF become `-`. */
  function SanitizeName(n: Bytes): (r: Bytes)
    ensures |r| == |n| && Free(r, '\n') && Free(r, '\r')
    ensures forall i :: 0 <= i < |n| && n[i] != '\n' && n[i] != '\r' ==> r[i] == n[i]
    ensures forall i :: 0 <= i < |n| && (n[i] == '\n' || n[i] == '\r') ==> r[i] == '-'
  {
    if n == [] then []
    else
      var r := [if n[0] == '\n' || n[0] == '\r' then '-' else n[0]] + SanitizeName(n[1..]);
      assert forall i :: 1 <= i < |r| ==> r[i] == SanitizeName(n[1..])[i - 1];
      r
  }

  /** A byte `net/http` keeps in a cookie value. */
  predicate CookieValueByte(c: byte)
  {
    0x20 <= c as int < 0x7f && c != '"' && c != ';' && c != '\\'
  }

  /** The bytes of `v` that may appear in a cookie value, in order. */
  function KeepCookieBytes(v: Bytes): (r: Bytes)
    ensures |r| <= |v|
    ensures forall i :: 0 <= i < |r| ==> CookieValueByte(r[i])
    ensures (forall i :: 0 <= i < |v| ==> CookieValueByte(v[i])) ==> r == v
    ensures |v| == 1 ==> r == (if CookieValueByte(v[0]) then v else [])
  {
    if v == [] then []
    else
      var rest := KeepCookieBytes(v[1..]);
      if CookieValueByte(v[0]) then
        var r := [v[0]] + rest;
        assert forall i :: 1 <= i < |r| ==> r[i] == rest[i - 1];
        r
      else rest
  }

  /** Keeping cookie bytes is a filter: it works piece by piece, so each
      byte of the value is kept or dropped on its own. */
  lemma {:induction false} KeepCookieBytesAppend(a: Bytes, b: Bytes)
    ensures KeepCookieBytes(a + b) == KeepCookieBytes(a) + KeepCookieBytes(b)
    decreases a
  {
    if a != [] {
      assert (a + b)[1..] == a[1..] + b;
      KeepCookieBytesAppend(a[1..], b);
    } else {
      assert a + b == b;
    }
  }

  /** `sanitizeCookieValue` (Go 1.21): invalid bytes are dropped, and a value
      holding a space or a comma is put in double quotes. */
  function SanitizeValue(v: Bytes): (r: Bytes)
    ensures Free(r, ';') && Free(r, '\\')
    ensures r == [] <==> KeepCookieBytes(v) == []
    ensures var k := KeepCookieBytes(v);
      (k != [] && (!Free(k, ' ') || !Free(k, ','))) ==> r == "\"" + k + "\""
    ensures var k := KeepCookieBytes(v);
      (Free(k, ' ') && Free(k, ',')) ==> r == k
  {
    var k := KeepCookieBytes(v);
    if k == [] then k
    else if !Free(k, ' ') || !Free(k, ',') then "\"" + k + "\""
    else k
  }

  /** The `name=value` text `AddCookie` writes for one cookie. */
  function CookiePair(c: HttpCookie): (p: Bytes)
    ensures p != []
  {
    SanitizeName(c.name) + "=" + SanitizeValue(c.value)
  }

  /** The header `AddCookie` writes, and the separator between its pairs. */
  const COOKIE: Bytes := "Cookie"
  const COOKIE_SEP: Bytes := "; "

  /** `req.AddCookie(c)`: the pair is appended to the single `Cookie` header
      value with `; `, or becomes that value when there is none. */
  function AddCookie(h: HeaderMap, c: HttpCookie): HeaderMap
  {
    var s := CookiePair(c);
    var prior := Get(h, COOKIE);
    if prior != [] then Set(h, COOKIE, prior + COOKIE_SEP + s) else Set(h, COOKIE, s)
  }

  function AddCookies(h: HeaderMap, cs: seq<HttpCookie>): HeaderMap
    decreases cs
  {
    if cs == [] then h else AddCookies(AddCookie(h, cs[0]), cs[1..])
  }

  function CookiePairs(cs: seq<HttpCookie>): (ps: seq<Bytes>)
    ensures |ps| == |cs|
    ensures forall i :: 0 <= i < |ps| ==> ps[i] == CookiePair(cs[i])
  {
    seq(|cs|, i requires 0 <= i < |cs| => CookiePair(cs[i]))
  }

  lemma {:induction false} AddCookiesGlues(h: HeaderMap, cs: seq<HttpCookie>)
    requires cs != []
    ensures Values(AddCookies(h, cs), Canonical(COOKIE)) == [GlueAll(Get(h, COOKIE), CookiePairs(cs), COOKIE_SEP)]
    ensures forall k :: k != Canonical(COOKIE) ==> Values(AddCookies(h, cs), k) == Values(h, k)
    decreases cs
  {
    var h' := AddCookie(h, cs[0]);
    assert Get(h', COOKIE) == Glue(Get(h, COOKIE), CookiePair(cs[0]), COOKIE_SEP);
    if |cs| > 1 {
      AddCookiesGlues(h', cs[1..]);
      assert CookiePairs(cs)[1..] == CookiePairs(cs[1..]);
    }
  }

  /** After the cookies are added, the header holds a single `Cookie` value:
      the earlier value (when there was one) and each cookie's pair in list
      order, joined by `; `. No other header key changes. */
  lemma AddCookiesHeader(h: HeaderMap, cs: seq<HttpCookie>)
    requires cs != []
    ensures var prior := Get(h, COOKIE);
      Values(AddCookies(h, cs), Canonical(COOKIE)) == [JoinWith((if prior == [] then [] else [prior]) + CookiePairs(cs), COOKIE_SEP)]
    ensures forall k :: k != Canonical(COOKIE) ==> Values(AddCookies(h, cs), k) == Values(h, k)
  {
    AddCookiesGlues(h, cs);
    GlueAllJoin(Get(h, COOKIE), CookiePairs(cs), COOKIE_SEP);
  }

  /** `NewRequestWithContext(ctx, opt)`. `order` is the order in which the
      `range` over `opt.Params` visits the keys. */
  function NewRequestWithContext(lib: Library, ctx: Context, opt: Options, order: seq<Bytes>): (r: Result<HttpRequest>)
    requires Enumerates(order, opt.params)
    ensures BodyReader(opt.body).Fail? ==> r == Fail(BodyReader(opt.body).error)
    ensures BodyReader(opt.body).Ok? ==>
      var std := StdNewRequest(lib, ctx, opt.verb, opt.url, BodyReader(opt.body).value);
      (std.Fail? ==> r == Fail(std.error))
      && (std.Ok? ==>
          && r.Ok?
          && r.value.url.path == std.value.url.path + Concat(opt.path)
          && r.value.url.rawQuery == Join((if std.value.url.rawQuery == [] then [] else [std.value.url.rawQuery])
                                          + QueryPieces(order, opt.params), '&')
          && r.value.url.scheme == std.value.url.scheme && r.value.url.host == std.value.url.host
          && r.value.verb == std.value.verb && r.value.ctx == ctx
          && r.value.contentLength == std.value.contentLength && r.value.getBody == std.value.getBody
          && r.value.body == std.value.body)
    ensures r.Ok? && opt.cookies == [] ==> r.value.header == opt.header
  {
    match BodyReader(opt.body)
    case Fail(e) => Fail(e)
    case Ok(reader) =>
      match StdNewRequest(lib, ctx, opt.verb, opt.url, reader)
      case Fail(e) => Fail(e)
      case Ok(req) =>
        assert forall i :: 0 <= i < |order| ==> order[i] in opt.params;
        AppendParamsJoin(req.url.rawQuery, order, opt.params);
        var u := req.url.(path := req.url.path + Concat(opt.path),
                          rawQuery := AppendParams(req.url.rawQuery, order, opt.params));
        Ok(req.(url := u, header := AddCookies(opt.header, opt.cookies)))
  }
}

=== FILE: response.dfy ===
/** The response wrapper (response.go): the one-shot `unpack` that drains
    the body into a buffer, the accessors over that buffer, and the `Stat`
    summary of a request/response pair. Times are integer nanoseconds. */
module Response {
  import opened Base
  import opened HttpHeader
  import opened Options
  import opened Platform
  import opened Request

  /** An `http.Response` body: the bytes it yields, then the error that
      ends the read (None when it ends with EOF). */
  datatype BodyStream = BodyStream(data: Bytes, readErr: Option<Error>)

  /** The fields of an `*http.Response` the core reads or writes. */
  datatype RawResponse = RawResponse(statusCode: int, header: HeaderMap, contentLength: int, body: Option<BodyStream>)

  /** The `Response` wrapper; `unpacked` is the state of its `sync.Once`. */
  datatype Response = Response(
    raw: Option<RawResponse>,
    request: Option<HttpRequest>,
    startAt: int,
    cost: int,
    retry: int,
    buffer: Bytes,
    err: Option<Error>,
    unpacked: bool)

  /** `resp.unpack()` at time `now`. The first call records the cost and, when
      there is a body, reads all of it into the buffer, overwriting the
      content length with the number of bytes read and the error with the
      read error. Every later call does nothing. */
  function Unpack(r: Response, now: int): (u: Response)
    ensures u.unpacked
    ensures r.unpacked ==> u == r
    ensures !r.unpacked ==> u.cost == now - r.startAt
    ensures u.request == r.request && u.startAt == r.startAt && u.retry == r.retry
    ensures !r.unpacked && (r.raw.None? || r.raw.value.body.None?) ==>
      u.raw == r.raw && u.buffer == r.buffer && u.err == r.err
    ensures !r.unpacked && r.raw.Some? && r.raw.value.body.Some? ==>
      var b := r.raw.value.body.value;
      && u.buffer == r.buffer + b.data
      && u.err == b.readErr
      && u.raw.Some?
      && u.raw.value.contentLength == |b.data|
      && u.raw.value.statusCode == r.raw.value.statusCode
      && u.raw.value.header == r.raw.value.header
  {
    if r.unpacked then r
    else
      var done := r.(unpacked := true, cost := now - r.startAt);
      if r.raw.None? || r.raw.value.body.None? then done
      else
        var b := r.raw.value.body.value;
        var drained := r.raw.value.(contentLength := |b.data|, body := Some(BodyStream([], None)));
        done.(raw := Some(drained), buffer := r.buffer + b.data, err := b.readErr)
  }

  /** `unpack` has effect at most once: whenever it is called again, and at
      whatever time, nothing changes. */
  lemma {:induction false} UnpackOnce(r: Response, first: int, later: seq<int>)
    ensures UnpackAll(Unpack(r, first), later) == Unpack(r, first)
    decreases later
  {
    if later != [] {
      UnpackOnce(r, first, later[1..]);
    }
  }

  /** `unpack` called at each time in turn. */
  function UnpackAll(r: Response, times: seq<int>): Response
    decreases times
  {
    if times == [] then r else UnpackAll(Unpack(r, times[0]), times[1..])
  }

  /** `resp.Text()`, `resp.String()` and `resp.Bytes()`: the buffer as it
      stands, without reading. */
  function Text(r: Response): Bytes
  {
    r.buffer
  }

  /** The accessors read nothing: on a fresh response they give the whole
      body once it is unpacked, and unpacking again does not change what
      they give. */
  lemma TextAfterUnpack(r: Response, now: int, later: int)
    requires !r.unpacked && r.buffer == [] && r.raw.Some? && r.raw.value.body.Some?
    ensures Text(Unpack(r, now)) == r.raw.value.body.value.data
    ensures Text(Unpack(Unpack(r, now), later)) == Text(Unpack(r, now))
  {
  }

  /** `resp.Error()`: "" without an error, else the error's message. */
  function ErrorText(r: Response): (t: Bytes)
    ensures r.err.None? ==> t == []
    ensures r.err.Some? ==> t == Message(r.err.value)
  {
    match r.err
    case None => []
    case Some(e) => Message(e)
  }

  /** A body in the summary: the decoded JSON object, the raw text when it
      does not decode, or nothing. */
  datatype StatBody = NoBody | Decoded(decoded: JsonObject) | RawText(text: Bytes)

  datatype RequestStat = RequestStat(verb: Bytes, header: map<Bytes, Bytes>, url: Bytes, body: StatBody)

  datatype ResponseStat = ResponseStat(header: map<Bytes, Bytes>, body: StatBody, statusCode: int, contentLength: int)

  /** The `Stat` struct; `cost` is in milliseconds. */
  datatype Stat = Stat(
    startAt: Bytes,
    cost: int,
    request: RequestStat,
    response: ResponseStat,
    err: Bytes,
    exception: Bytes,
    retry: int)

  const NoRequestStat: RequestStat := RequestStat([], map[], [], NoBody)
  const NoResponseStat: ResponseStat := ResponseStat(map[], NoBody, 0, 0)

  /** The first value under each key, as `for k, v := range h { m[k] = v[0] }`
      reads it; that loop would panic on an empty list. */
  function FirstValues(h: HeaderMap): (m: map<Bytes, Bytes>)
    requires NonEmptyLists(h)
    ensures m.Keys == h.Keys
  {
    map k | k in h :: h[k][0]
  }

  /** The summary holds, under each canonical key, what `Get` returns. */
  lemma FirstValuesGet(h: HeaderMap, k: Bytes)
    requires NonEmptyLists(h) && k in h && Canonical(k) == k
    ensures FirstValues(h)[k] == Get(h, k)
  {
  }

  /** A body as `Stat` shows it: decoded when it is a JSON object, else the
      text as it is. */
  function BodyStat(lib: Library, b: Bytes): (s: StatBody)
    ensures s.RawText? <==> lib.decodeObject(b).None?
    ensures s.RawText? ==> s.text == b
    ensures lib.decodeObject(b).Some? ==> s == Decoded(lib.decodeObject(b).value)
  {
    match lib.decodeObject(b)
    case None => RawText(b)
    case Some(o) => Decoded(o)
  }

  /** `resp.Stat()`. */
  function GetStat(r: Response, lib: Library): (st: Stat)
    requires r.raw.Some? ==> NonEmptyLists(r.raw.value.header)
    requires r.request.Some? ==> NonEmptyLists(r.request.value.header)
    ensures st.startAt == lib.formatTime(r.startAt)
    ensures r.cost >= 0 ==> st.cost * 1_000_000 <= r.cost < (st.cost + 1) * 1_000_000
    ensures r.raw.None? ==> st.response == NoResponseStat
    ensures r.raw.Some? ==>
      && st.response.header == FirstValues(r.raw.value.header)
      && st.response.statusCode == r.raw.value.statusCode
      && st.response.contentLength == r.raw.value.contentLength
      && st.response.body == BodyStat(lib, r.buffer)
    ensures r.request.None? ==> st.request == NoRequestStat
    ensures r.request.Some? ==>
      && st.request.verb == r.request.value.verb
      && st.request.url == lib.renderUrl(r.request.value.url)
      && st.request.header == FirstValues(r.request.value.header)
      && (r.request.value.getBody.None? <==> st.request.body == NoBody)
      && (r.request.value.getBody.Some? ==> st.request.body == BodyStat(lib, r.request.value.getBody.value))
    ensures st.err == ErrorText(r)
    ensures st.exception == [] && st.retry == 0
  {
    var response :=
      if r.raw.None? then NoResponseStat
      else
        var raw := r.raw.value;
        ResponseStat(FirstValues(raw.header), BodyStat(lib, r.buffer), raw.statusCode, raw.contentLength);
    var request :=
      if r.request.None? then NoRequestStat
      else
        var req := r.request.value;
        var body := if req.getBody.None? then NoBody else BodyStat(lib, req.getBody.value);
        RequestStat(req.verb, FirstValues(req.header), lib.renderUrl(req.url), body);
    Stat(lib.formatTime(r.startAt), TruncDiv(r.cost, 1_000_000), request, response, ErrorText(r), [], 0)
  }

  lemma {:induction false} AddCookiesKeepsNonEmpty(h: HeaderMap, cs: seq<HttpCookie>)
    requires NonEmptyLists(h)
    ensures NonEmptyLists(AddCookies(h, cs))
    decreases cs
  {
    if cs != [] {
      SetKeepsNonEmpty(h, COOKIE, if Get(h, COOKIE) != [] then Get(h, COOKIE) + COOKIE_SEP + CookiePair(cs[0]) else CookiePair(cs[0]));
      AddCookiesKeepsNonEmpty(AddCookie(h, cs[0]), cs[1..]);
    }
  }

  /** A request built from options with a byte-slice body shows that body in
      its summary: the replayed snapshot is exactly the bytes given. Its
      header can always be summarised. */
  lemma StatShowsRequestBody(lib: Library, opts: seq<RequestOption>, order: seq<Bytes>, b: Bytes, r: Response)
    requires Enumerates(order, NewOptions(opts).params)
    requires NewOptions(opts).body == ByteSlice(b)
    requires NewRequestWithContext(lib, Background, NewOptions(opts), order).Ok?
    requires r.request == Some(NewRequestWithContext(lib, Background, NewOptions(opts), order).value)
    requires r.raw.Some? ==> NonEmptyLists(r.raw.value.header)
    ensures NonEmptyLists(r.request.value.header)
    ensures GetStat(r, lib).request.body == BodyStat(lib, b)
  {
    var o := NewOptions(opts);
    NewOptionsDefaults(opts);
    ApplyKeepsNonEmptyLists(NewOptions([]), opts);
    AddCookiesKeepsNonEmpty(o.header, o.cookies);
  }
}

=== FILE: session.dfy ===
/** The session (session.go): the transport and client configuration `New`
    derives from the options, the setters that adjust it, and the sequential
    part of `DoRequest` — folding the per-call options over the baseline,
    building the request, and choosing the traced or the plain send. */
module Session {
  import opened Base
  import opened Text
  import opened HttpHeader
  import opened Options
  import opened Platform
  import opened Request

  /** `time.Duration` units, in nanoseconds. */
  const MILLISECOND: int := 1_000_000
  const SECOND: int := 1_000_000_000

  /** `Transport.Proxy`: the environment's proxy settings, or a fixed URL. */
  datatype ProxyRule = FromEnvironment | FixedProxy(url: Url)

  /** `Transport.DialContext`: a direct `net.Dialer` with its connect timeout
      and keep-alive period, or a SOCKS5 dialer through `host`. */
  datatype Dialer = DirectDialer(timeout: int64, keepAlive: int64) | Socks5Dialer(host: Bytes)

  datatype Transport = Transport(
    proxy: ProxyRule,
    dial: Dialer,
    maxIdleConns: int,
    disableCompression: bool,
    disableKeepAlives: bool,
    insecureSkipVerify: bool)

  /** The `http.Client` fields set here. Its `Transport` is the session's own
      transport (the same pointer, so later `Proxy` and `SetKeepAlives` calls
      reach it too); a plain dispatch carries it alongside the client. The
      cookie jar is not modelled. */
  datatype Client = Client(timeout: int64)

  datatype Session = Session(transport: Transport, client: Client, opts: Options)

  const ErrEmptyProxy: Error := Error("proxy is empty")

  /** `time.Duration(n) * unit` in Go's 64-bit arithmetic. */
  function Duration(n: int64, unit: int): (d: int64)
    ensures INT64_MIN <= n * unit < INT64_LIMIT ==> d == n * unit
  {
    WrapInt64(n * unit)
  }

  /** `New(opts...)`: the options with their defaults, a transport that
      skips TLS verification unless `Verify` was set, and a client whose
      timeout is `Timeout` read as milliseconds. */
  function New(opts: seq<RequestOption>): (s: Session)
    ensures s.opts == NewOptions(opts)
    ensures s.transport.insecureSkipVerify == !s.opts.verify
    ensures s.client.timeout == Duration(s.opts.timeout, MILLISECOND)
    ensures s.transport.proxy == FromEnvironment
    ensures s.transport.dial == DirectDialer(30 * SECOND, 300 * SECOND)
    ensures s.transport.maxIdleConns == 100 && s.transport.disableCompression && !s.transport.disableKeepAlives
  {
    var o := NewOptions(opts);
    Session(
      Transport(FromEnvironment, DirectDialer(Duration(30, SECOND), Duration(300, SECOND)), 100, true, false, !o.verify),
      Client(Duration(o.timeout, MILLISECOND)),
      o)
  }

  /** With no options, TLS verification is skipped and the client gives up
      after thirty seconds. */
  lemma NewDefaults()
    ensures New([]).transport.insecureSkipVerify
    ensures New([]).client.timeout == 30 * SECOND
  {
    NewOptionsDefaults([]);
  }

  /** Verification is on exactly when the last `Verify` option says so. */
  lemma NewVerifyLastWins(opts: seq<RequestOption>, b: bool)
    ensures New(opts + [Verify(b)]).transport.insecureSkipVerify == !b
  {
    ApplyConcat(NewOptions([]), opts, [Verify(b)]);
  }

  /** `sess.Init(opts...)`: the options are folded into the baseline; the
      transport and client already built from it are left as they are. */
  function Init(s: Session, opts: seq<RequestOption>): (r: Session)
    ensures r.opts == Apply(s.opts, opts)
    ensures r.transport == s.transport && r.client == s.client
  {
    s.(opts := Apply(s.opts, opts))
  }

  /** Options given to `New` and then to `Init` add up to all of them given
      to `New`, as far as the baseline options go. */
  lemma NewThenInit(a: seq<RequestOption>, b: seq<RequestOption>)
    ensures Init(New(a), b).opts == New(a + b).opts
  {
    NewOptionsDefaults(a);
    NewOptionsDefaults(a + b);
    ApplyConcat(NewOptions([]), a, b);
  }

  predicate IsSocks(scheme: Bytes)
  {
    scheme == "socks5" || scheme == "socks4"
  }

  /** `sess.Proxy(addr)`: an empty address and an unparsable one are errors
      that leave the session alone; a `socks5` or `socks4` URL replaces only
      the dialer, and any other URL replaces only the proxy rule. */
  function Proxy(s: Session, addr: Bytes, lib: Library): (r: (Session, Option<Error>))
    ensures addr == [] ==> r == (s, Some(ErrEmptyProxy))
    ensures addr != [] && lib.parseUrl(addr).Fail? ==> r == (s, Some(lib.parseUrl(addr).error))
    ensures r.1.None? <==> addr != [] && lib.parseUrl(addr).Ok?
    ensures r.0.client == s.client && r.0.opts == s.opts
    ensures var t, t' := s.transport, r.0.transport;
      && t'.maxIdleConns == t.maxIdleConns && t'.disableCompression == t.disableCompression
      && t'.disableKeepAlives == t.disableKeepAlives && t'.insecureSkipVerify == t.insecureSkipVerify
    ensures r.1.None? && IsSocks(lib.parseUrl(addr).value.scheme) ==>
      r.0.transport.proxy == s.transport.proxy && r.0.transport.dial == Socks5Dialer(lib.parseUrl(addr).value.host)
    ensures r.1.None? && !IsSocks(lib.parseUrl(addr).value.scheme) ==>
      r.0.transport.dial == s.transport.dial && r.0.transport.proxy == FixedProxy(lib.parseUrl(addr).value)
  {
    if addr == [] then (s, Some(ErrEmptyProxy))
    else
      match lib.parseUrl(addr)
      case Fail(e) => (s, Some(e))
      case Ok(u) =>
        if IsSocks(u.scheme) then (s.(transport := s.transport.(dial := Socks5Dialer(u.host))), None)
        else (s.(transport := s.transport.(proxy := FixedProxy(u))), None)
  }

  /** Setting the same proxy twice is setting it once. */
  lemma ProxyIdempotent(s: Session, addr: Bytes, lib: Library)
    ensures Proxy(Proxy(s, addr, lib).0, addr, lib) == Proxy(s, addr, lib)
  {
  }

  /** `sess.SetKeepAlives(b)`. */
  function SetKeepAlives(s: Session, keepAlives: bool): (r: Session)
    ensures r.transport.disableKeepAlives == !keepAlives
    ensures r.transport.(disableKeepAlives := s.transport.disableKeepAlives) == s.transport
    ensures r.client == s.client && r.opts == s.opts
  {
    s.(transport := s.transport.(disableKeepAlives := !keepAlives))
  }

  /** Of two keep-alive settings the later wins, and setting back the old
      value restores the session. */
  lemma SetKeepAlivesLastWins(s: Session, a: bool, b: bool)
    ensures SetKeepAlives(SetKeepAlives(s, a), b) == SetKeepAlives(s, b)
    ensures SetKeepAlives(SetKeepAlives(s, a), !s.transport.disableKeepAlives) == s
  {
  }

  /** `sess.Timeout(n)`: the client timeout becomes `n` seconds. */
  function SetTimeout(s: Session, n: int64): (r: Session)
    ensures r.client.timeout == Duration(n, SECOND)
    ensures r.transport == s.transport && r.opts == s.opts
  {
    s.(client := Client(Duration(n, SECOND)))
  }

  /** The two units agree: `sess.Timeout(n)` gives the client the timeout
      that `New` derives from a `Timeout(n * 1000)` option, which counts
      milliseconds. */
  lemma TimeoutUnits(opts: seq<RequestOption>, n: int64)
    requires INT64_MIN <= n * 1000 < INT64_LIMIT
    ensures SetTimeout(New(opts), n).client == New(opts + [Timeout(n * 1000)]).client
  {
    ApplyConcat(NewOptions([]), opts, [Timeout(n * 1000)]);
    assert (n * 1000) * MILLISECOND == n * SECOND;
  }

  /** How `DoRequest` ends, up to the network: the build error it returns
      (wrapped as `Request: %w`), or the request and the route it is sent
      on — the transport directly when tracing, the client (which sends
      through the same transport) otherwise. */
  datatype Dispatch =
    | BuildFailed(err: Error)
    | Traced(req: HttpRequest, transport: Transport)
    | Plain(req: HttpRequest, client: Client, transport: Transport)
  {
    predicate Sent() { !BuildFailed? }
  }

  /** The options one `DoRequest` call builds from. */
  function CallOptions(s: Session, opts: seq<RequestOption>): Options
  {
    Apply(s.opts, opts)
  }

  function Build(s: Session, lib: Library, ctx: Option<Context>, opts: seq<RequestOption>, order: seq<Bytes>): (d: Dispatch)
    requires Enumerates(order, CallOptions(s, opts).params)
    ensures var options := CallOptions(s, opts);
      var built := NewRequestWithContext(lib, Background, options, order);
      && (d.BuildFailed? <==> built.Fail?)
      && (built.Fail? ==> Message(d.err) == "Request: " + Message(built.error) && Wraps(d.err, built.error))
      && (built.Ok? ==> (d.Traced? <==> options.trace)
                        && d.req == (if ctx.Some? then built.value.(ctx := ctx.value) else built.value))
    ensures d.Sent() ==> d.transport == s.transport
    ensures d.Plain? ==> d.client == s.client
  {
    var options := CallOptions(s, opts);
    match NewRequestWithContext(lib, Background, options, order)
    case Fail(e) => BuildFailed(Wrap("Request: ", e))
    case Ok(req) =>
      var req' := if ctx.Some? then req.(ctx := ctx.value) else req;
      if options.trace then Traced(req', s.transport) else Plain(req', s.client, s.transport)
  }

  /** `sess.DoRequest(ctx, opts...)` as written. `options := sess.opts`
      copies the struct but not the `Params` and `Header` maps it points to,
      so every `Param`, `Params`, `Header`, `Headers` and `Form` option of the
      call writes into the session's own maps, and `req.Header = opt.Header`
      followed by `AddCookie` writes the `Cookie` header there too. The
      session returned is the one the next call starts from. */
  function DoRequestAsWritten(s: Session, lib: Library, ctx: Option<Context>, opts: seq<RequestOption>, order: seq<Bytes>): (r: (Session, Dispatch))
    requires Enumerates(order, CallOptions(s, opts).params)
    ensures r.1 == Build(s, lib, ctx, opts, order)
    ensures r.0.transport == s.transport && r.0.client == s.client
    ensures r.0.opts.(params := s.opts.params, header := s.opts.header) == s.opts
    ensures r.0.opts.params == CallOptions(s, opts).params
    ensures r.1.Sent() ==> r.0.opts.header == r.1.req.header
    ensures !r.1.Sent() ==> r.0.opts.header == CallOptions(s, opts).header
  {
    var options := CallOptions(s, opts);
    var d := Build(s, lib, ctx, opts, order);
    var header := if d.Sent() then d.req.header else options.header;
    (s.(opts := s.opts.(params := options.params, header := header)), d)
  }

  /** `DoRequest` with the baseline isolated from the call, as the value
      receiver and the struct copy suggest: the session is returned as it
      was; the request sent is the one built from the folded options, with
      the caller's context, and a build error comes back wrapped as
      `Request: %w`. A sent request carries one `Cookie` header — the baseline's
      and this call's header value (if any), then the baseline cookies and
      this call's cookies, each once and in order — with every other header
      key as the options left it. */
  function DoRequest(s: Session, lib: Library, ctx: Option<Context>, opts: seq<RequestOption>, order: seq<Bytes>): (r: (Session, Dispatch))
    requires Enumerates(order, CallOptions(s, opts).params)
    ensures r.0 == s
    ensures var built := NewRequestWithContext(lib, Background, CallOptions(s, opts), order);
      && (r.1.Sent() <==> built.Ok?)
      && (built.Fail? ==> Message(r.1.err) == "Request: " + Message(built.error) && Wraps(r.1.err, built.error))
      && (built.Ok? ==> r.1.req == (if ctx.Some? then built.value.(ctx := ctx.value) else built.value))
    ensures r.1.Plain? ==> r.1.client == s.client
    ensures r.1.Traced? <==> r.1.Sent() && CallOptions(s, opts).trace
    ensures r.1.Sent() ==> r.1.transport == s.transport
    ensures var options := CallOptions(s, opts);
      var prior := Get(options.header, COOKIE);
      var expected := [JoinWith((if prior == [] then [] else [prior]) + CookiePairs(options.cookies), COOKIE_SEP)];
      r.1.Sent() && options.cookies != [] ==> Values(r.1.req.header, Canonical(COOKIE)) == expected
    ensures r.1.Sent() ==> forall k :: k != Canonical(COOKIE) ==> Values(r.1.req.header, k) == Values(CallOptions(s, opts).header, k)
  {
    var options := CallOptions(s, opts);
    if options.cookies != [] then
      AddCookiesHeader(options.header, options.cookies);
      (s, Build(s, lib, ctx, opts, order))
    else
      (s, Build(s, lib, ctx, opts, order))
  }

  /** With the isolated `DoRequest`, a call is unaffected by the calls made
      before it on the same session. */
  lemma DoRequestIsolated(s: Session, lib: Library, ctx: Option<Context>,
                          first: seq<RequestOption>, firstOrder: seq<Bytes>,
                          opts: seq<RequestOption>, order: seq<Bytes>)
    requires Enumerates(firstOrder, CallOptions(s, first).params)
    requires Enumerates(order, CallOptions(s, opts).params)
    ensures var s1 := DoRequest(s, lib, ctx, first, firstOrder).0;
      Enumerates(order, CallOptions(s1, opts).params)
      && DoRequest(s1, lib, ctx, opts, order).1 == DoRequest(s, lib, ctx, opts, order).1
  {
  }

  /** A session with one baseline cookie `a=b`, and a URL the library can
      parse. */
  function CookieSession(): Session
  {
    New([Cookie(COOKIE_AB)])
  }

  const COOKIE_AB: HttpCookie := HttpCookie("a", "b")
  const PAIR_AB: Bytes := "a=b"
  const PAIR_AB_TWICE: Bytes := "a=b; a=b"

  lemma CookiePairAB()
    ensures CookiePair(COOKIE_AB) == PAIR_AB
    ensures Glue(PAIR_AB, PAIR_AB, COOKIE_SEP) == PAIR_AB_TWICE
  {
    var n: Bytes := "a";
    var v: Bytes := "b";
    assert SanitizeName(n[1..]) == [];
    assert KeepCookieBytes(v[1..]) == [];
    assert KeepCookieBytes(v) == "b";
    assert Free(v, ' ') && Free(v, ',');
  }

  /** A baseline holding the cookie `a=b`, no parameters and no body, for a
      plain GET to a URL the library can parse. */
  predicate CookieReady(s: Session, lib: Library)
  {
    && s.opts.cookies == [COOKIE_AB] && s.opts.params == map[]
    && s.opts.body == NilBody && s.opts.verb == "GET" && !s.opts.trace && lib.parseUrl(s.opts.url).Ok?
  }

  /** One call with no options on such a session: the pair is glued onto the
      baseline's `Cookie` header, and that header becomes the baseline's, so
      the session is ready for the same call again. */
  lemma AsWrittenCookieStep(s: Session, lib: Library)
    requires CookieReady(s, lib)
    ensures Enumerates([], CallOptions(s, []).params)
    ensures var (s1, d) := DoRequestAsWritten(s, lib, None, [], []);
      && d.Plain?
      && Get(d.req.header, COOKIE) == Glue(Get(s.opts.header, COOKIE), PAIR_AB, COOKIE_SEP)
      && s1.opts == s.opts.(header := d.req.header)
      && Get(s1.opts.header, COOKIE) == Get(d.req.header, COOKIE)
      && CookieReady(s1, lib)
  {
    assert CallOptions(s, []) == s.opts;
    assert ValidMethod("GET") by { assert IsToken("GET"); }
    CookiePairAB();
    assert AddCookies(s.opts.header, [COOKIE_AB]) == AddCookie(s.opts.header, COOKIE_AB);
  }

  /** The baseline of `CookieSession`: the defaults with the one cookie. */
  lemma CookieSessionBaseline(lib: Library)
    requires lib.parseUrl([]).Ok?
    ensures CookieReady(CookieSession(), lib) && Get(CookieSession().opts.header, COOKIE) == []
  {
    NewOptionsDefaults([Cookie(COOKIE_AB)]);
    assert CookieSession().opts == NewOptions([]).(cookies := [COOKIE_AB]);
  }

  /** The leak as written: on a session whose baseline holds the cookie
      `a=b`, the first call sends `Cookie: a=b` and the second, with the very
      same (empty) options, sends `Cookie: a=b; a=b`, because the first call
      left its `Cookie` header in the baseline header map. */
  lemma AsWrittenRepeatsCookies(lib: Library)
    requires lib.parseUrl([]).Ok?
    ensures Enumerates([], CallOptions(CookieSession(), []).params)
    ensures var s1 := DoRequestAsWritten(CookieSession(), lib, None, [], []).0;
      && Enumerates([], CallOptions(s1, []).params)
      && var d1 := DoRequestAsWritten(CookieSession(), lib, None, [], []).1;
      && var d2 := DoRequestAsWritten(s1, lib, None, [], []).1;
      && d1.Plain? && d2.Plain?
      && Get(d1.req.header, COOKIE) == PAIR_AB
      && Get(d2.req.header, COOKIE) == PAIR_AB_TWICE
  {
    var s0 := CookieSession();
    CookieSessionBaseline(lib);
    AsWrittenCookieStep(s0, lib);
    var s1 := DoRequestAsWritten(s0, lib, None, [], []).0;
    AsWrittenCookieStep(s1, lib);
  }

  /** And a per-call parameter stays in the baseline: after one call with
      `Param(k, v)`, the next call without it still sends `k`. */
  lemma AsWrittenKeepsParams(s: Session, lib: Library, k: Bytes, v: Value, order: seq<Bytes>)
    requires Enumerates(order, CallOptions(s, [Param(k, v)]).params)
    ensures var s1 := DoRequestAsWritten(s, lib, None, [Param(k, v)], order).0;
      k in CallOptions(s1, []).params && CallOptions(s1, []).params[k] == v
  {
    var s1 := DoRequestAsWritten(s, lib, None, [Param(k, v)], order).0;
    ApplySingle(s.opts, Param(k, v));
    assert CallOptions(s1, []) == s1.opts;
  }
}

=== FILE: show.dfy ===
/** Log formatting (util.go and session.go): `show` prefixes every line of a
    wire dump with a prompt, doubles each `%` because the result is passed
    to a printf-style logger as its format string, and truncates long
    output; `DumpRequestIndent` prefixes without escaping. */
module Show {
  import opened Base
  import opened Text

  /** The truncation budgets of the two copies of `show`. */
  const UTIL_BUDGET: nat := 1024
  const SESSION_BUDGET: nat := 9999

  /** `bytes.Replace(s, "%", "%%", -1)`. */
  function EscapePercent(s: Bytes): Bytes
  {
    if s == [] then []
    else
      var head: Bytes := if s[0] == '%' then "%%" else [s[0]];
      head + EscapePercent(s[1..])
  }

  /** Escaping adds one byte per `%` and no newline. */
  lemma {:induction false} EscapeLength(s: Bytes)
    ensures |EscapePercent(s)| == |s| + Count(s, '%')
    ensures Count(EscapePercent(s), '\n') == Count(s, '\n')
  {
    if s != [] {
      EscapeLength(s[1..]);
      var head: Bytes := if s[0] == '%' then "%%" else [s[0]];
      CountAppend(head, EscapePercent(s[1..]), '\n');
    }
  }

  lemma {:induction false} EscapeAppend(a: Bytes, b: Bytes)
    ensures EscapePercent(a + b) == EscapePercent(a) + EscapePercent(b)
  {
    if a == [] {
      assert a + b == b;
    } else {
      assert (a + b)[1..] == a[1..] + b;
      EscapeAppend(a[1..], b);
    }
  }

  lemma {:induction false} EscapeFree(s: Bytes)
    requires Free(s, '%')
    ensures EscapePercent(s) == s
  {
    if s != [] {
      EscapeFree(s[1..]);
    }
  }

  /** What a printf-style formatter prints for a format string with no
      arguments: `%%` becomes `%`; None when a `%` starts any other verb. */
  function UnescapePercent(s: Bytes): Option<Bytes>
  {
    if s == [] then Some([])
    else if s[0] == '%' then
      if |s| >= 2 && s[1] == '%' then
        match UnescapePercent(s[2..])
        case None => None
        case Some(t) => Some(['%'] + t)
      else None
    else
      match UnescapePercent(s[1..])
      case None => None
      case Some(t) => Some([s[0]] + t)
  }

  /** A format string that prints literally. */
  predicate FormatSafe(s: Bytes)
  {
    UnescapePercent(s).Some?
  }

  /** The logger prints an escaped line exactly as it was. */
  lemma {:induction false} UnescapeEscape(s: Bytes)
    ensures UnescapePercent(EscapePercent(s)) == Some(s)
  {
    if s != [] {
      UnescapeEscape(s[1..]);
      var e := EscapePercent(s);
      if s[0] == '%' {
        assert e == "%%" + EscapePercent(s[1..]);
        assert e[0] == '%' && e[1] == '%';
        assert e[2..] == EscapePercent(s[1..]);
        assert ['%'] + s[1..] == s;
      } else {
        assert e == [s[0]] + EscapePercent(s[1..]);
        assert e[1..] == EscapePercent(s[1..]);
        assert [s[0]] + s[1..] == s;
      }
    }
  }

  /** `s` with `prompt` inserted after every newline. */
  function Indent(s: Bytes, prompt: Bytes): Bytes
  {
    if s == [] then []
    else
      var head: Bytes := if s[0] == '\n' then "\n" + prompt else [s[0]];
      head + Indent(s[1..], prompt)
  }

  lemma Regroup(p: Bytes, x: Bytes, nl: Bytes, i: Bytes)
    ensures p + x + nl + (p + i + nl) == p + (x + nl + p + i) + nl
  {
  }

  lemma Expand(n: int, p: int)
    ensures (n + 1) * p == n * p + p
    ensures (n + 1) * (p + 1) == n * p + n + p + 1
  {
  }

  /** Indenting adds a prompt per newline. */
  lemma {:induction false} IndentLength(s: Bytes, prompt: Bytes)
    ensures |Indent(s, prompt)| == |s| + Count(s, '\n') * |prompt|
  {
    if s != [] {
      IndentLength(s[1..], prompt);
      var n := Count(s[1..], '\n');
      if s[0] == '\n' {
        Expand(n, |prompt|);
      }
    }
  }

  lemma {:induction false} IndentAppend(a: Bytes, b: Bytes, prompt: Bytes)
    ensures Indent(a + b, prompt) == Indent(a, prompt) + Indent(b, prompt)
  {
    if a == [] {
      assert a + b == b;
    } else {
      assert (a + b)[1..] == a[1..] + b;
      IndentAppend(a[1..], b, prompt);
    }
  }

  /** One line as it is written: escaped for `show`, as it is for the dump. */
  function Render(line: Bytes, escape: bool): Bytes
  {
    if escape then EscapePercent(line) else line
  }

  lemma RenderAppend(a: Bytes, b: Bytes, escape: bool)
    ensures Render(a + b, escape) == Render(a, escape) + Render(b, escape)
  {
    if escape {
      EscapeAppend(a, b);
    }
  }

  /** The loop over `bytes.Split(b, "\n")` that writes the prompt, the
      rendered line and a newline for each piece. */
  function Lines(pieces: seq<Bytes>, prompt: Bytes, escape: bool): Bytes
  {
    if pieces == [] then []
    else prompt + Render(pieces[0], escape) + "\n" + Lines(pieces[1..], prompt, escape)
  }

  lemma {:induction false} IndentFree(s: Bytes, prompt: Bytes)
    requires Free(s, '\n')
    ensures Indent(s, prompt) == s
  {
    if s != [] {
      IndentFree(s[1..], prompt);
      assert [s[0]] + s[1..] == s;
    }
  }

  lemma RenderFree(s: Bytes, escape: bool)
    requires Free(s, '\n')
    ensures Free(Render(s, escape), '\n')
  {
    FreeCount(s, '\n');
    FreeCount(Render(s, escape), '\n');
    if escape {
      EscapeLength(s);
    }
  }

  lemma RenderLine(p: Bytes, j: Bytes, escape: bool)
    ensures Render(p + "\n" + j, escape) == Render(p, escape) + "\n" + Render(j, escape)
  {
    RenderAppend(p + "\n", j, escape);
    RenderAppend(p, "\n", escape);
    assert Render("\n", escape) == "\n";
  }

  lemma IndentLine(line: Bytes, j: Bytes, prompt: Bytes)
    requires Free(line, '\n')
    ensures Indent(line + "\n" + j, prompt) == line + "\n" + prompt + Indent(j, prompt)
  {
    var nl: Bytes := "\n";
    assert Indent(line + nl, prompt) == line + (nl + prompt) by {
      IndentAppend(line, nl, prompt);
      IndentFree(line, prompt);
      assert Indent(nl, prompt) == nl + prompt + [];
    }
    IndentAppend(line + nl, j, prompt);
  }

  /** The lines written for newline-free pieces, in closed form: the prompt,
      the pieces joined and rendered with the prompt after each newline, and
      a final newline. */
  lemma {:induction false} LinesJoin(pieces: seq<Bytes>, prompt: Bytes, escape: bool)
    requires |pieces| >= 1
    requires forall i :: 0 <= i < |pieces| ==> Free(pieces[i], '\n')
    ensures Lines(pieces, prompt, escape) == prompt + Indent(Render(Join(pieces, '\n'), escape), prompt) + "\n"
  {
    var p := pieces[0];
    var rp := Render(p, escape);
    RenderFree(p, escape);
    if |pieces| == 1 {
      IndentFree(rp, prompt);
      assert pieces[1..] == [];
      assert Lines(pieces, prompt, escape) == prompt + rp + "\n" + [];
    } else {
      var rest := pieces[1..];
      var j := Join(rest, '\n');
      LinesJoin(rest, prompt, escape);
      assert Join(pieces, '\n') == p + "\n" + j;
      RenderLine(p, j, escape);
      IndentLine(rp, Render(j, escape), prompt);
      var i := Indent(Render(j, escape), prompt);
      var nl: Bytes := "\n";
      assert Lines(pieces, prompt, escape) == prompt + rp + nl + (prompt + i + nl);
      assert Indent(Render(Join(pieces, '\n'), escape), prompt) == rp + nl + prompt + i;
      Regroup(prompt, rp, nl, i);
    }
  }

  /** The lines written for `b`, in closed form. */
  lemma LinesClosedForm(b: Bytes, prompt: Bytes, escape: bool)
    ensures Lines(Split(b, '\n'), prompt, escape) == prompt + Indent(Render(b, escape), prompt) + "\n"
  {
    LinesJoin(Split(b, '\n'), prompt, escape);
    JoinSplit(b, '\n');
  }

  /** `show` before truncation. */
  function ShowFull(b: Bytes, prompt: Bytes): Bytes
  {
    Lines(Split(b, '\n'), prompt, true)
  }

  /** Its length: a prompt and a newline per line, plus the input with the
      newlines taken out and each `%` counted twice. */
  lemma ShowFullLength(b: Bytes, prompt: Bytes)
    ensures var n := Count(b, '\n');
      |ShowFull(b, prompt)| == (n + 1) * (|prompt| + 1) + |b| - n + Count(b, '%')
  {
    LinesClosedForm(b, prompt, true);
    var e := EscapePercent(b);
    EscapeLength(b);
    IndentLength(e, prompt);
    var n := Count(b, '\n');
    Expand(n, |prompt|);
  }

  /** One line per newline in the input and one more; the empty input gives
      the prompt and a newline. */
  lemma ShowFullLineCount(b: Bytes, prompt: Bytes)
    requires Free(prompt, '\n')
    ensures Count(ShowFull(b, prompt), '\n') == Count(b, '\n') + 1
  {
    LinesClosedForm(b, prompt, true);
    var e := EscapePercent(b);
    var mid := Indent(e, prompt);
    EscapeLength(b);
    FreeCount(prompt, '\n');
    IndentCount(e, prompt);
    CountAppend(prompt, mid, '\n');
    CountAppend(prompt + mid, "\n", '\n');
  }

  lemma ShowFullEmpty(prompt: Bytes)
    ensures ShowFull([], prompt) == prompt + "\n"
  {
    var pieces: seq<Bytes> := [[]];
    assert Split([], '\n') == pieces;
    assert pieces[1..] == [];
    assert Lines(pieces, prompt, true) == prompt + [] + "\n" + [];
  }

  lemma {:induction false} IndentCount(s: Bytes, prompt: Bytes)
    requires Count(prompt, '\n') == 0
    ensures Count(Indent(s, prompt), '\n') == Count(s, '\n')
  {
    if s != [] {
      IndentCount(s[1..], prompt);
      var head: Bytes := if s[0] == '\n' then "\n" + prompt else [s[0]];
      CountAppend(head, Indent(s[1..], prompt), '\n');
      if s[0] == '\n' {
        CountAppend("\n", prompt, '\n');
      }
    }
  }

  lemma {:induction false} IndentEscapeCommute(s: Bytes, prompt: Bytes)
    requires Free(prompt, '%')
    ensures Indent(EscapePercent(s), prompt) == EscapePercent(Indent(s, prompt))
  {
    if s != [] {
      IndentEscapeCommute(s[1..], prompt);
      var head: Bytes := if s[0] == '\n' then "\n" + prompt else [s[0]];
      EscapeAppend(head, Indent(s[1..], prompt));
      var eh: Bytes := if s[0] == '%' then "%%" else [s[0]];
      IndentAppend(eh, EscapePercent(s[1..]), prompt);
      if s[0] == '\n' {
        EscapeFree(head);
      }
    }
  }

  /** What the logger prints for an untruncated `show` with a prompt free of
      `%`: every line of `b` behind the prompt, with `%` as it was. */
  lemma ShowFullPrintsInput(b: Bytes, prompt: Bytes)
    requires Free(prompt, '%')
    ensures UnescapePercent(ShowFull(b, prompt)) == Some(prompt + Indent(b, prompt) + "\n")
  {
    LinesClosedForm(b, prompt, true);
    IndentEscapeCommute(b, prompt);
    EscapeFree(prompt);
    EscapeFree("\n");
    EscapeAppend(prompt, Indent(b, prompt));
    EscapeAppend(prompt + Indent(b, prompt), "\n");
    UnescapeEscape(prompt + Indent(b, prompt) + "\n");
  }

  /** The suffix that reports the full length `n` of a truncated output. */
  function TruncationNote(n: nat): (r: Bytes)
    ensures Free(r, '%')
  {
    var d := Decimal(n);
    assert Free(d, '%');
    var r := "...[Len=" + d + ", Truncated]";
    assert forall i :: 8 <= i < 8 + |d| ==> r[i] == d[i - 8];
    r
  }

  /** `show(b, prompt)` with truncation budget `budget` as written: output
      longer than the budget is cut at exactly `budget` bytes. */
  function Show(b: Bytes, prompt: Bytes, budget: nat): (r: Bytes)
    ensures |ShowFull(b, prompt)| <= budget ==> r == ShowFull(b, prompt)
    ensures |ShowFull(b, prompt)| > budget ==>
      && |r| == budget + |TruncationNote(|ShowFull(b, prompt)|)|
      && r[..budget] == ShowFull(b, prompt)[..budget]
      && r[budget..] == TruncationNote(|ShowFull(b, prompt)|)
  {
    var full := ShowFull(b, prompt);
    if |full| > budget then full[..budget] + TruncationNote(|full|) else full
  }

  /** The reported length can be read back from the note. */
  lemma TruncationNoteLength(n: nat)
    ensures var r := TruncationNote(n);
      DigitsValue(r[8..|r| - 12]) == n
  {
    var d := Decimal(n);
    assert TruncationNote(n)[8..|TruncationNote(n)| - 12] == d;
  }

  lemma {:induction false} LonePercent(x: Bytes, y: Bytes)
    requires Free(x, '%')
    requires y != [] && y[0] != '%'
    ensures UnescapePercent(x + "%" + y) == None
  {
    if x == [] {
      assert x + "%" + y == "%" + y;
    } else {
      assert (x + "%" + y)[1..] == x[1..] + "%" + y;
      LonePercent(x[1..], y);
    }
  }

  lemma {:induction false} RepeatFree(n: nat, c: byte, d: byte)
    requires c != d
    ensures Free(seq(n, _ => c), d)
  {
  }

  /** The cut can fall between the two bytes of an escaped `%`: for an input
      of `a` bytes and then `%`, sized so that the first `%` of the pair is
      the last byte kept, the logger is handed a lone `%` followed by `.`,
      a format verb, instead of the text. */
  lemma ShowCanSplitEscape(prompt: Bytes, budget: nat)
    requires Free(prompt, '%') && Free(prompt, '\n')
    requires budget > |prompt|
    ensures var b := seq(budget - |prompt| - 1, _ => 'a') + "%";
      !FormatSafe(Show(b, prompt, budget))
  {
    var a := seq(budget - |prompt| - 1, _ => 'a');
    var b := a + "%";
    assert Free(b, '\n') by {
      RepeatFree(|a|, 'a', '\n');
      FreeAppend(a, "%", '\n');
    }
    ShowFullOneLine(b, prompt);
    EscapeFree(a);
    EscapeAppend(a, "%");
    assert EscapePercent("%") == "%%";
    var full := ShowFull(b, prompt);
    assert full == prompt + (a + "%%") + "\n";
    var kept := full[..budget];
    assert kept == prompt + a + "%";
    RepeatFree(|a|, 'a', '%');
    FreeAppend(prompt, a, '%');
    var r := Show(b, prompt, budget);
    assert r == (prompt + a) + "%" + TruncationNote(|full|);
    LonePercent(prompt + a, TruncationNote(|full|));
  }

  lemma ShowFullOneLine(b: Bytes, prompt: Bytes)
    requires Free(b, '\n')
    ensures ShowFull(b, prompt) == prompt + EscapePercent(b) + "\n"
  {
    SplitPrefix(b, [], '\n');
    assert b + [] == b;
    assert Split(b, '\n') == [b];
    assert [b][1..] == [];
    assert Lines([b], prompt, true) == prompt + EscapePercent(b) + "\n" + [];
  }

  /** Both copies of `show`, with the prompt `> ` the trace uses. */
  lemma ShowBudgetsSplitEscape()
    ensures !FormatSafe(Show(seq(1021, _ => 'a') + "%", "> ", UTIL_BUDGET))
    ensures !FormatSafe(Show(seq(9996, _ => 'a') + "%", "> ", SESSION_BUDGET))
  {
    ShowCanSplitEscape("> ", UTIL_BUDGET);
    ShowCanSplitEscape("> ", SESSION_BUDGET);
  }

  /** A prefix of a format-safe string is safe, or becomes safe when its last
      byte (half of a `%%`) is dropped. */
  lemma {:induction false} SafePrefix(s: Bytes, k: nat)
    requires FormatSafe(s) && 1 <= k <= |s|
    ensures FormatSafe(s[..k]) || FormatSafe(s[..k - 1])
  {
    if s[0] == '%' {
      if k >= 2 {
        if k > 2 {
          SafePrefix(s[2..], k - 2);
          assert s[..k][2..] == s[2..][..k - 2];
          assert s[..k - 1][2..] == s[2..][..k - 3];
        } else {
          assert s[..k] == "%%";
          assert UnescapePercent(s[..k][2..]) == Some([]);
        }
      } else {
        assert s[..k - 1] == [];
      }
    } else if k > 1 {
      SafePrefix(s[1..], k - 1);
      assert s[..k][1..] == s[1..][..k - 1];
      assert s[..k - 1][1..] == s[1..][..k - 2];
    }
  }

  lemma {:induction false} SafeAppend(a: Bytes, b: Bytes)
    requires FormatSafe(a) && Free(b, '%')
    ensures FormatSafe(a + b)
  {
    if a == [] {
      assert a + b == b;
      EscapeFree(b);
      UnescapeEscape(b);
    } else if a[0] == '%' {
      assert (a + b)[2..] == a[2..] + b;
      SafeAppend(a[2..], b);
    } else {
      assert (a + b)[1..] == a[1..] + b;
      SafeAppend(a[1..], b);
    }
  }

  /** `show` as evidently intended: when the cut would split a `%%`, one byte
      fewer is kept, so the output always prints literally. */
  function ShowSafe(b: Bytes, prompt: Bytes, budget: nat): (r: Bytes)
    ensures |ShowFull(b, prompt)| <= budget ==> r == ShowFull(b, prompt)
    ensures |ShowFull(b, prompt)| > budget ==>
      exists k :: 0 <= k && budget - 1 <= k <= budget && r == ShowFull(b, prompt)[..k] + TruncationNote(|ShowFull(b, prompt)|)
  {
    var full := ShowFull(b, prompt);
    if |full| <= budget then full
    else if FormatSafe(full[..budget]) then full[..budget] + TruncationNote(|full|)
    else
      assert budget >= 1 by { assert full[..0] == []; }
      full[..budget - 1] + TruncationNote(|full|)
  }

  /** With a prompt free of `%`, the corrected `show` is always a literal
      format string. */
  lemma ShowSafeIsFormatSafe(b: Bytes, prompt: Bytes, budget: nat)
    requires Free(prompt, '%')
    ensures FormatSafe(ShowSafe(b, prompt, budget))
  {
    var full := ShowFull(b, prompt);
    ShowFullPrintsInput(b, prompt);
    if |full| > budget && !FormatSafe(full[..budget]) {
      assert budget >= 1 by { assert full[..0] == []; }
      SafePrefix(full, budget);
      SafeAppend(full[..budget - 1], TruncationNote(|full|));
    } else if |full| > budget {
      SafeAppend(full[..budget], TruncationNote(|full|));
    }
  }

  /** `DumpRequestIndent(req)` on the dump `dump`: each line behind `> `,
      with no escaping and no truncation. */
  function DumpRequestIndent(dump: Bytes): Bytes
  {
    Lines(Split(dump, '\n'), "> ", false)
  }

  lemma {:induction false} LinesSplit(pieces: seq<Bytes>, prompt: Bytes)
    requires Free(prompt, '\n')
    requires forall i :: 0 <= i < |pieces| ==> Free(pieces[i], '\n')
    ensures Split(Lines(pieces, prompt, false), '\n') == seq(|pieces|, i requires 0 <= i < |pieces| => prompt + pieces[i]) + [[]]
  {
    var want := seq(|pieces|, i requires 0 <= i < |pieces| => prompt + pieces[i]);
    if pieces != [] {
      var line := prompt + pieces[0];
      var tail := Lines(pieces[1..], prompt, false);
      var x: Bytes := "\n" + tail;
      assert Split(x, '\n') == [[]] + Split(tail, '\n') by {
        assert x[1..] == tail;
      }
      assert Split(Lines(pieces, prompt, false), '\n') == [line] + Split(tail, '\n') by {
        assert Lines(pieces, prompt, false) == line + x;
        FreeAppend(prompt, pieces[0], '\n');
        SplitPrefix(line, x, '\n');
        assert line + [] == line;
      }
      LinesSplit(pieces[1..], prompt);
      assert want == [line] + want[1..];
      assert want[1..] == seq(|pieces[1..]|, i requires 0 <= i < |pieces[1..]| => prompt + pieces[1..][i]);
    }
  }

  /** Every line of the indented dump is `> ` and the matching dump line,
      and a final empty piece follows the last newline; stripping the
      prompts and joining the lines gives the dump back. */
  lemma DumpRequestIndentLines(dump: Bytes)
    ensures var ls := Split(DumpRequestIndent(dump), '\n');
      var ds := Split(dump, '\n');
      && |ls| == |ds| + 1 && ls[|ds|] == []
      && (forall i :: 0 <= i < |ds| ==> ls[i] == "> " + ds[i])
      && Join(seq(|ds|, i requires 0 <= i < |ds| => ls[i][2..]), '\n') == dump
  {
    var ds := Split(dump, '\n');
    LinesSplit(ds, "> ");
    var ls := Split(DumpRequestIndent(dump), '\n');
    assert seq(|ds|, i requires 0 <= i < |ds| => ls[i][2..]) == ds;
    JoinSplit(dump, '\n');
  }
}

=== FILE: text.dfy ===
/** Splitting and joining byte strings on a separator byte, as Go's
    `bytes.Split` / `strings.Join` do, and the byte-wise order `sort.Strings` uses. */
module Text {
  import opened Base

  /** `bytes.Split(s, []byte{sep})`: n separators give n + 1 pieces, and the
      empty input gives one empty piece. */
  function Split(s: Bytes, sep: byte): (r: seq<Bytes>)
    ensures |r| == Count(s, sep) + 1
    ensures forall i :: 0 <= i < |r| ==> Free(r[i], sep)
  {
    if s == [] then [[]]
    else
      var rest := Split(s[1..], sep);
      if s[0] == sep then [[]] + rest
      else
        var r := [[s[0]] + rest[0]] + rest[1..];
        assert forall i :: 1 <= i < |r| ==> r[i] == rest[i];
        r
  }

  /** `strings.Join(ps, string(sep))`. */
  function Join(ps: seq<Bytes>, sep: byte): Bytes
  {
    if ps == [] then []
    else if |ps| == 1 then ps[0]
    else ps[0] + [sep] + Join(ps[1..], sep)
  }

  /** Joining the pieces of a split gives back the input. */
  lemma {:induction false} JoinSplit(s: Bytes, sep: byte)
    ensures Join(Split(s, sep), sep) == s
  {
    if s != [] {
      var rest := Split(s[1..], sep);
      JoinSplit(s[1..], sep);
      if s[0] == sep {
        assert Split(s, sep) == [[]] + rest;
        assert ([[]] + rest)[1..] == rest;
      } else {
        var r := [[s[0]] + rest[0]] + rest[1..];
        assert Split(s, sep) == r;
        if |rest| == 1 {
          assert Join(rest, sep) == rest[0];
        } else {
          assert r[1..] == rest[1..];
          assert Join(rest, sep) == rest[0] + [sep] + Join(rest[1..], sep);
        }
      }
    }
  }

  /** A piece free of the separator glues onto the front of the first piece. */
  lemma {:induction false} SplitPrefix(p: Bytes, x: Bytes, sep: byte)
    requires Free(p, sep)
    ensures Split(p + x, sep) == [p + Split(x, sep)[0]] + Split(x, sep)[1..]
  {
    if p != [] {
      assert (p + x)[1..] == p[1..] + x;
      assert (p + x)[0] == p[0];
      SplitPrefix(p[1..], x, sep);
      assert [p[0]] + (p[1..] + Split(x, sep)[0]) == p + Split(x, sep)[0];
    } else {
      var r := Split(x, sep);
      assert p + x == x;
      assert p + r[0] == r[0];
      assert [r[0]] + r[1..] == r;
    }
  }

  /** Splitting a join of separator-free pieces gives back the pieces. */
  lemma {:induction false} SplitJoin(ps: seq<Bytes>, sep: byte)
    requires |ps| >= 1
    requires forall i :: 0 <= i < |ps| ==> Free(ps[i], sep)
    ensures Split(Join(ps, sep), sep) == ps
  {
    if |ps| == 1 {
      SplitPrefix(ps[0], [], sep);
      assert ps[0] + [] == ps[0];
    } else {
      var tail := Join(ps[1..], sep);
      SplitJoin(ps[1..], sep);
      assert Join(ps, sep) == ps[0] + ([sep] + tail);
      SplitPrefix(ps[0], [sep] + tail, sep);
      assert ([sep] + tail)[1..] == tail;
      assert Split([sep] + tail, sep) == [[]] + ps[1..];
      assert ps[0] + [] == ps[0];
    }
  }

  /** `strings.Join(ps, sep)` for a separator of any length. */
  function JoinWith(ps: seq<Bytes>, sep: Bytes): Bytes
  {
    if ps == [] then []
    else if |ps| == 1 then ps[0]
    else ps[0] + sep + JoinWith(ps[1..], sep)
  }

  lemma {:induction false} JoinWithOneByte(ps: seq<Bytes>, sep: byte)
    ensures JoinWith(ps, [sep]) == Join(ps, sep)
  {
    if |ps| > 1 {
      JoinWithOneByte(ps[1..], sep);
    }
  }

  /** The Go idiom `if acc != "" { acc += sep }; acc += p`. */
  function Glue(acc: Bytes, p: Bytes, sep: Bytes): Bytes
  {
    if acc == [] then p else acc + sep + p
  }

  /** `Glue` for each piece in turn. */
  function GlueAll(acc: Bytes, ps: seq<Bytes>, sep: Bytes): Bytes
    decreases ps
  {
    if ps == [] then acc else GlueAll(Glue(acc, ps[0], sep), ps[1..], sep)
  }

  /** Gluing non-empty pieces one at a time onto `acc` joins `acc` (if it is
      not empty) and the pieces with the separator. */
  lemma {:induction false} GlueAllJoin(acc: Bytes, ps: seq<Bytes>, sep: Bytes)
    requires forall i :: 0 <= i < |ps| ==> ps[i] != []
    ensures GlueAll(acc, ps, sep) == JoinWith((if acc == [] then [] else [acc]) + ps, sep)
    decreases ps
  {
    if ps == [] {
      assert (if acc == [] then [] else [acc]) + ps == (if acc == [] then [] else [acc]);
    } else {
      var acc' := Glue(acc, ps[0], sep);
      GlueAllJoin(acc', ps[1..], sep);
      assert acc' != [];
      if acc == [] {
        assert [acc'] + ps[1..] == ([] + ps);
      } else {
        var all := [acc] + ps;
        assert all[1..] == ps;
        if |ps| == 1 {
          assert JoinWith(all, sep) == acc + sep + ps[0];
          assert [acc'] + ps[1..] == [acc'];
        } else {
          assert JoinWith(ps, sep) == ps[0] + sep + JoinWith(ps[1..], sep);
          assert ([acc'] + ps[1..])[1..] == ps[1..];
        }
      }
    }
  }

  /** `a < b` for Go strings: byte-wise lexicographic order. */
  predicate Less(a: Bytes, b: Bytes)
  {
    if b == [] then false
    else if a == [] then true
    else a[0] < b[0] || (a[0] == b[0] && Less(a[1..], b[1..]))
  }

  lemma {:induction false} LessIrreflexive(a: Bytes)
    ensures !Less(a, a)
  {
    if a != [] {
      LessIrreflexive(a[1..]);
    }
  }

  lemma {:induction false} LessTransitive(a: Bytes, b: Bytes, c: Bytes)
    requires Less(a, b) && Less(b, c)
    ensures Less(a, c)
  {
    if a != [] && a[0] == b[0] && b[0] == c[0] {
      LessTransitive(a[1..], b[1..], c[1..]);
    }
  }
}
